=== FILE: README.md ===
# Webhook relay: a Dafny model

`main.js` is a Cloudflare Worker that turns a blockchain-activity webhook
from Alchemy into a Discord notification. For each request it:

- decodes the body;
- takes the first activity event, reading each field from the first truthy
  alternative in a fixed key order and falling back to a default;
- normalises the value, either as a number or as a hex raw value divided by
  10^decimals;
- normalises the timestamp: a hex string or a number, seconds or
  milliseconds, becomes ISO-8601;
- builds a rich embed and POSTs it;
- if the embed is refused, POSTs a plain-text fallback;
- answers 200, or 502 when both sends were refused, or 500 when anything
  threw.

The model is pure and functional. It has these modules:

- `Json`: JSON values, JavaScript `undefined`, truthiness, and the `||` and
  `??` operators. `OrChain` is a left-nested `||` chain, specified as
  choosing the first truthy alternative.
- `Host`: the runtime services the model cannot see, bundled into an `Env`
  record of functions:
  - the clock;
  - `Date.prototype.toISOString` on a valid time value;
  - Number-to-string;
  - string-to-Number;
  - floating-point division;
  - `JSON.stringify` and `JSON.parse`;
  - an error's `toString`.

  `Host` also defines JavaScript's ToString and ToNumber on JSON values, in
  terms of those functions. Both are partial: an object that JSON.parse gave
  a member named `toString` (directly, or inside an array) cannot be
  converted to a primitive, and the conversion throws a TypeError.
- `ParseInt`: `parseInt(s, 16)` following section 19.2.5 of ECMA-262:
  - leading white space and a sign are skipped;
  - an optional `0x`/`0X` is stripped;
  - the longest run of hex digits is read;
  - NaN results when there are no digits.
- `Address`: `shortAddr`.
- `Timestamp`: `parseTimestamp`. This includes the seconds/milliseconds
  threshold and the RangeError that `toISOString` throws outside the Date
  range (±8.64e15 ms), which the function catches.
- `Extract`: the extraction and defaulting chains, and the value priority.
- `Format`: the embed, the field rendering, and the fallback text. Both
  throw when a field they print cannot be converted to a string.
- `Relay`: the request decoder, the delivery decision (send, fallback,
  status) and the top-level `catch`.
  - A request body is either absent or a stream that can be read once, as
    in the Fetch standard.
  - A send ends in one of three ways: `Delivered` (a 2xx), `Refused` (any
    other response), or `Unreachable` (`fetch` rejected).
  - The handler returns the reply together with the list of POSTs made.

Four behaviours of the code are easy to misread:

- A field takes the first *truthy* alternative, not the first non-null one.
  So `0`, `""` and `false` are skipped too. A block number of 0 is
  extracted as "-" (`Extract.ZeroBlockIsDash`) and the embed's Block field
  shows "-" (`Format.ZeroBlockShowsDash`).
- A raw value string without hex digits gives NaN, not 0: `parseInt`
  returns NaN instead of throwing (`Extract.InvalidRawValueIsNaN`). The
  `catch` at main.js:62-64 runs only when converting the raw value or the
  decimals throws (`Extract.UnconvertibleRawValueIsZero`).
- A payload field that cannot be converted to a string makes the template
  literals throw: the embed's fields give 500 before any send
  (`Relay.UnprintableFieldIs500`). An address is only printed by the
  fallback text, so an unconvertible address gives 500 after the refused
  embed (`Relay.UnprintableAddressAfterRefusal`).
- An empty or non-JSON body stream does not give 200 or a `{ rawBody }`
  wrapper as written. It gives 500: see "Findings". A request with no body
  at all does get 200 (`Relay.NoBodyIsPing`).

## Model

| member | source | states |
|---|---|---|
| Json.Truthy | main.js:47-53 | ToBoolean: exactly `undefined`, `null`, `false`, NaN, 0 and `""` are falsy |
| Json.OrChain | main.js:51-53 | An `a \|\| b \|\| … \|\| d` chain yields the first truthy alternative, or the last one when none is truthy; with a truthy default the result is always truthy |
| Json.SelectionIsUnique | main.js:51-53 | Two results that both satisfy the first-truthy specification are equal, so the specification pins the chain's value down |
| Json.OnlyLastAlternative | main.js:51-53 | When every alternative but the last is falsy, the chain yields the default |
| Json.FirstAlternativeTruthy | main.js:51-53 | A truthy first alternative is the chain's value whatever follows |
| Json.Coalesce | main.js:60 | `a ?? b` is `a` unless `a` is `undefined` or `null`, and `b` when it is |
| Json.Get | main.js:47 | A property read yields the member when the value is an object holding that key, and `undefined` otherwise |
| Host.ParseJson | main.js:40 | JSON.parse always rejects the empty text |
| Host.JsonText | main.js:75-83 | A string prints as itself, an object as "[object Object]", an empty array as "", and a one-element array holding a non-null value as that element |
| Host.ArrayTextAppend | main.js:80-83 | Appending an element to a non-empty array appends a comma and the element's text (nothing for `null`), so an array prints as its elements joined by commas |
| Host.ToText | main.js:58 | ToString fails exactly on a value holding an object with a `toString` member, and gives a string back as itself |
| Host.ToNumber | main.js:19 | ToNumber fails exactly where ToString does; a number is kept, `null` is 0 and `undefined` is NaN |
| ParseInt.ParseIntHex | main.js:58 | `parseInt(s, 16)` is NaN exactly when no hex digit follows the white space, sign and `0x` prefix; otherwise it is the signed value of the longest digit run |
| ParseInt.TrimStart | main.js:58 | The leading white space that parseInt skips is exactly a maximal white-space prefix |
| ParseInt.HexRunLength | main.js:58 | The digit run parseInt reads is all hex and stops at the first non-digit |
| ParseInt.HexValueOfToHex | main.js:58 | Reading back the hex spelling of n gives n |
| ParseInt.HexRunStopsAtNonDigit | main.js:58 | The digit run of digits followed by a non-digit is exactly those digits |
| ParseInt.ParseHexSpelling | main.js:58 | `"0x"` + hex digits + any non-digit tail parses to the value of the digits |
| ParseInt.ParseIntHexRoundTrip | main.js:58 | parseInt of `"0x"` + the hex spelling of n (followed by any non-digit tail) gives back n |
| ParseInt.LeadingWhiteSpaceIgnored | main.js:58 | Leading white space does not change what parseInt returns |
| ParseInt.PrefixWithoutDigitsIsNaN | main.js:58 | `"0x"` not followed by a hex digit parses to NaN instead of throwing |
| ParseInt.HexValueOneEther | main.js:58 | The digits DE0B6B3A7640000 are 10^18 |
| ParseInt.ParseOneEther | main.js:58 | The raw value `"0xDE0B6B3A7640000"` reads as 10^18 |
| Address.Shorten | main.js:7 | A string of at most 12 characters is kept unchanged, and is the only case that is; a longer one becomes its first 6 characters, an ellipsis and its last 4 (11 characters) |
| Address.ShortAddr | main.js:5-8 | Anything that is not a non-empty string renders as "-"; a string renders shortened; the result is never empty and never over 12 characters |
| Address.ShortAddrIdempotent | main.js:5-8 | Shortening an already shortened address changes nothing |
| Address.ShortenKeepsEnds | main.js:7 | An address of the form head(6) + middle(>2) + tail(4) shows as head + ellipsis + tail |
| Timestamp.ToMillis | main.js:16 | A finite number below 10^12 is taken as seconds and scaled by 1000; anything else, NaN and both infinities included, is left unchanged |
| Timestamp.TruncateTowardZero | main.js:17 | The integer time value is the number rounded toward zero: the floor of a non-negative number, the ceiling of a negative one |
| Timestamp.IsoString | main.js:17 | toISOString succeeds exactly for a finite time value within ±8.64e15 ms, and then formats that value truncated toward zero |
| Timestamp.ParseTimestamp | main.js:11-28 | A falsy input gives the current time; every input gives either the current time or the ISO text of a valid time value, so the function never fails |
| Timestamp.HexTimestamp | main.js:14-17 | A `"0x"` string goes through parseInt(…, 16), the unit heuristic and toISOString, and the current time when that throws |
| Timestamp.WholeMillis | main.js:17 | A whole number of milliseconds inside the Date range formats as itself |
| Timestamp.SecondsInRange | main.js:16-17 | A whole, non-negative number of seconds k below 10^12 scales to k·1000 ms, inside the Date range, and formats as itself |
| Timestamp.HexSecondsAreScaled | main.js:14-17 | A hex timestamp k below 10^12 is read as seconds: the ISO text of k·1000 ms |
| Timestamp.HexMillisAreKept | main.js:14-17 | A hex timestamp from 10^12 to 8.64e15 is read as milliseconds |
| Timestamp.HexBeyondRangeIsNow | main.js:14-27 | A hex timestamp beyond the Date range makes toISOString throw and yields the current time |
| Timestamp.HexWithoutDigitsIsNow | main.js:14-27 | A `"0x"` string without digits parses to NaN, which Date rejects, and yields the current time |
| Timestamp.NumericTimestamp | main.js:19-22 | A non-zero JSON number below 10^12 whose scaled value is at least −8.64e15 ms is scaled by 1000; from 10^12 up to the range limit it is kept; either way the ISO text is of the value truncated toward zero |
| Timestamp.FarPastSecondsIsNow | main.js:19-27 | A number of seconds whose scaled value falls below −8.64e15 ms makes toISOString throw, and the current time is used |
| Timestamp.UnconvertibleTimestampIsNow | main.js:19-27 | A timestamp object whose `Number()` conversion throws is caught and yields the current time |
| Timestamp.HexValueOfExample | main.js:15 | The digits 5F5E100 are 100000000 |
| Timestamp.HexExampleIsSeconds | main.js:14-17 | `"0x5F5E100"` is read as 100000000 seconds, the ISO text of 100000000000 ms |
| Timestamp.MillisExampleKept | main.js:19-22 | 1700000000000 is already milliseconds and is formatted unscaled |
| Extract.EventRoot | main.js:47 | The event root is `data.event` when that is truthy, else an empty object, and it is always truthy |
| Extract.Activities | main.js:48 | The activity list is `event.activity` when that is an array, and empty otherwise |
| Extract.FirstActivity | main.js:48-49 | The activity is the first element of `event.activity` when that is an array with a truthy first element, else an empty object |
| Extract.RawContractMember | main.js:56 | `evt.rawContract && evt.rawContract.key` is the member of `rawContract` when that is truthy, and is falsy otherwise |
| Extract.Pick | main.js:51-53 | A field with a truthy default gets the first truthy alternative in its key order, and is always truthy |
| Extract.TimestampCandidates | main.js:71 | The timestamp sources in priority order: the activity's `blockTimestamp`, the root's `blockTimestamp`, then `data.createdAt` |
| Extract.ValueOf | main.js:54-67 | The value is never null: a null `value` on the last path becomes 0 through `??` |
| Extract.ExtractEvent | main.js:47-71 | Extraction fails, with a null dereference, exactly when the payload is `null`; otherwise every label field is truthy and the value is not null |
| Extract.FieldsFollowKeyOrder | main.js:51-71 | From, To, Hash, Asset, Category and Block each follow their key order (fromAddress/from, toAddress/to, hash/transactionHash/txHash, asset/rawContract.asset, category, blockNum), the value is the one the value priority gives for the activity, and the timestamp is parseTimestamp of the first truthy timestamp source |
| Extract.ZeroBlockIsDash | main.js:70 | A block number of 0 is falsy, is skipped, and shows as "-" |
| Extract.NoActivityGivesDefaults | main.js:47-70 | Without an activity every field takes its default: "-", "-", "-", 0, "ETH", "-", "-" |
| Extract.BlockTimestampWins | main.js:71 | A truthy `blockTimestamp` on the activity is the one parsed, whatever the root and `createdAt` hold |
| Extract.NoTimestampIsNow | main.js:71 | With no truthy timestamp source the current time is used |
| Extract.NumericValueWins | main.js:55 | A number-typed `value` is used verbatim, whatever `rawContract` holds |
| Extract.PlainValuePassesThrough | main.js:66 | Without a numeric `value` or a truthy raw value, a non-null `value` is kept as it is and a missing or null one becomes 0 |
| Extract.RawPath | main.js:56-64 | With no numeric `value` and a truthy raw value, the value is parseInt of the raw value's text divided by 10^decimals, or 0 when either conversion throws |
| Extract.RawPathIgnoresValue | main.js:56-64 | On the raw path a non-numeric `value` plays no part |
| Extract.DecimalsDefault | main.js:60 | An explicit decimals of 0 is kept; only a missing or null decimals becomes 18 |
| Extract.RawHexValueRoundTrip | main.js:58-61 | The raw value `"0x"` + the hex spelling of n is divided as exactly n; the value is 0 when the decimals conversion throws |
| Extract.InvalidRawValueIsNaN | main.js:57-61 | A raw string without hex digits is divided as NaN, since parseInt does not throw; the value is 0 when the decimals conversion throws |
| Extract.UnconvertibleRawValueIsZero | main.js:56-64 | A raw value object with a `toString` member makes parseInt throw, and the `catch` gives 0 |
| Format.HashText | main.js:80 | The Hash field is a bare "-" exactly when the hash is the default "-" |
| Format.AmountText | main.js:81 | The Value field is the value's text, one space, then the asset's text |
| Format.BuildEmbed | main.js:73-87 | Building the embed throws exactly when Hash, Value, Asset, Category or Block cannot be converted to a string; otherwise it has six fields named From, To, Hash, Value, Category, Block in that order, only Hash not inline, and the event's timestamp |
| Format.FieldNamesDistinct | main.js:77-84 | No field name repeats, so a field can be found by name |
| Format.AddressFieldsShortened | main.js:78-79 | From and To hold the shortened addresses as inline code, at most 14 characters |
| Format.HashFieldRoundTrip | main.js:80 | The Hash field is "-" exactly for the default hash, and otherwise the hash's text between backticks; for a string hash, the characters between the first and last backtick are the hash itself |
| Format.EmbedFieldValues | main.js:81-83 | The Value field is the amount text, and Category and Block are the texts of the category and the block; a defaulted category or block shows "-" |
| Format.ZeroBlockShowsDash | main.js:70-83 | A `blockNum` of 0 is skipped, and the embed's Block field shows "-" |
| Format.DescriptionLinksHash | main.js:75 | The explorer link is the transaction URL followed by the hash, even when the hash is "-" |
| Format.Truncate | main.js:96 | `slice(0, n)` is a prefix of length min(length, n) |
| Format.RawDump | main.js:96 | The raw dump is a prefix of the serialised payload, at most 1900 characters, and the whole of it when it fits |
| Format.FallbackText | main.js:96 | The fallback text throws exactly when From, To, Hash, Value, Asset or Block cannot be converted; otherwise it is "New TX Event:", the From, To, Hash, Value and Block lines, then "Raw: " and the raw dump |
| Relay.Decode | main.js:34-44 | The corrected decoder: an empty or missing body is a ping; JSON text is parsed; any other text is wrapped as `{ rawBody }` |
| Relay.ReadJson | main.js:35 | `json()` leaves a body stream used and parses what it read; a used stream rejects; a missing body is not JSON and stays usable |
| Relay.ReadText | main.js:37 | `text()` reads an unused stream once and rejects on a used one; a missing body reads as "" |
| Relay.BodyReadOnce | main.js:35-37 | After `json()` the same stream cannot be read by `text()`; a missing body still reads as "" |
| Relay.DecodeAsWritten | main.js:34-44 | As written, JSON text is parsed, a missing body is a ping, and every other body, the empty stream included, fails because it was already read |
| Relay.Deliver | main.js:89-111 | One or two POSTs, the embed first; a second, the text fallback, exactly when the embed is refused and the text can be built; 200 exactly when a POST got through; 502 exactly when both were refused |
| Relay.DeliveryWithAnswers | main.js:95-111 | With both endpoints answering: 200 if either send succeeds, else 502; one send, or two when the first fails |
| Relay.Respond | main.js:32-115 | A decode failure or a null payload gives 500 and a ping gives 200, both with nothing sent; an event the embed cannot print gives 500 with nothing sent; any other event is delivered |
| Relay.Handle | main.js:31-115 | An empty or missing body is answered 200 with nothing sent; at most two POSTs, the embed first and the text only after a refusal; 200 after a send only when one got through; 502 only after two refusals |
| Relay.HandleAsWritten | main.js:31-115 | As written, a missing body is answered 200 and any body JSON.parse rejects is answered 500, with nothing sent |
| Relay.HandlersAgreeOnJson | main.js:34-44 | On a missing body and on a JSON body the two handlers agree |
| Relay.NoBodyIsPing | main.js:34-38 | A request without a body is answered 200 with nothing sent, as written too |
| Relay.EmptyBodyAsWrittenIs500 | main.js:35-38 | An empty body stream, answered 200 by the corrected handler, is answered 500 as written |
| Relay.PlainTextBody | main.js:37-43 | Non-JSON text is relayed as `{ rawBody }` by the corrected handler and answered 500 as written |
| Relay.NullPayloadIs500 | main.js:47 | A JSON `null` body makes `data.event` throw: 500, nothing sent |
| Relay.HandleDelivers | main.js:73-111 | For a printable JSON event the embed goes first, the text follows exactly after a refusal when it can be built, 200 exactly when a send got through and 502 exactly when both were refused |
| Relay.UnprintableFieldIs500 | main.js:75-83 | A Hash, Value, Asset, Category or Block that cannot be converted to a string makes the embed throw: 500, nothing sent |
| Relay.UnprintableAddressAfterRefusal | main.js:95-96 | An unconvertible address passes the embed but makes the fallback text throw after the refusal: 500 after one send |
| Relay.FallbackCarriesRawDump | main.js:95-102 | After a refused embed the second and last POST is the text fallback, starting "New TX Event:" and ending with the first min(length, 1900) characters of the serialised payload |
| Relay.ExampleFields | main.js:51-70 | The example activity's labels are read from fromAddress, toAddress, hash, asset, category and blockNum |
| Relay.ExampleValue | main.js:55 | The example activity's numeric value 2.5 is used as it is |
| Relay.ExampleEvent | main.js:47-71 | The example payload extracts to the example transfer event |
| Relay.ExampleEmbed | main.js:77-84 | The example embed shows `0xAAAA…9999`, `0xBBBB…9999` and `0xHASH` as code, the Number-to-string text of 2.5 followed by " USDC", "token", and the Number-to-string text of 123 |
| Relay.ExampleTransfer | main.js:31-111 | The example payload, delivered on the first try, is answered 200 after exactly one POST carrying that embed |

## Left out

- Timestamp.ParseTimestamp: the contract says only "current time or a valid formatted time". The exact result for each input class is stated by the Timestamp lemmas.
- Format.BuildEmbed: the contract fixes when it throws, the field names, the inline flags and the timestamp. The field values are stated by Format.AddressFieldsShortened (From, To), Format.HashFieldRoundTrip (Hash), Format.EmbedFieldValues (Value, Category, Block) and Format.DescriptionLinksHash (the link).
- Relay.Handle: the contract is a summary. The delivery path is stated by Relay.Respond, Relay.HandleDelivers and the other Relay lemmas.
- Extract.ValueOf: the contract says only that the value is not null. The three priority paths are stated by Extract.NumericValueWins, Extract.RawPath, Extract.PlainValuePassesThrough and the raw-value lemmas.
- Floating point is not modelled; it is left to `Env`:
  - `v / Math.pow(10, dec)` is the opaque `Env.quotient`.
  - Number-to-string is the opaque `Env.numberText`.
  - So "10^18 / 10^18 is 1" is not proved. Only the parseInt step (`ParseInt.ParseOneEther`) is.
- The parseInt result is kept exact. JavaScript rounds it to a double, which loses precision above 2^53.
- `n * 1000` and the threshold comparison are computed on exact reals, without double rounding.
- The sign of zero is not modelled.
- The clock, the calendar formatting of `toISOString`, `JSON.stringify`, `JSON.parse` on non-empty text and `err.toString()` are parameters in `Env`. They are not modelled. The model only fixes when `toISOString` throws and that the empty text is not JSON.
- String-to-Number conversion, used for non-hex timestamps and string decimals, is the opaque `Env.stringToNumber`.
- Which conversion throws first, when several fields cannot be converted, is not modelled: each gives the same TypeError, whose text is left to `Env.describe`.
- HTTP is left out:
  - The `Request` and `Response` objects, headers, and the JSON encoding of the outbound bodies are not modelled.
  - An outbound POST is modelled only by its payload and by how it ended.
  - The webhook URL constant (main.js:1-2) is not modelled.
- `console.error` logging and the `.text()` reads of failed Discord responses are left out. They are logging only. If `discordResp.text()` rejected, that would also end in the 500 path.
- Text length is counted in Unicode scalar values; JavaScript counts UTF-16 code units. The two differ only for characters outside the Basic Multilingual Plane.
- JSON object member order is not modelled: objects are maps. The serialised payload is whatever `Env.stringify` returns.
- Concurrency between invocations is not modelled. There is no shared state to model.

## Findings

| source | as written | input that shows it | evidently intended | confidence | as-written member | corrected member |
|---|---|---|---|---|---|---|
| main.js:35-37 | `request.json()` consumes a body stream, so the `request.text()` in its `catch` rejects, and that rejection reaches the outer `catch` (a request with no body is not affected) | an empty body stream, or the body `hello` | empty body answered 200 with nothing sent; non-JSON text relayed as `{ rawBody: text }` | high (not executed) | Relay.DecodeAsWritten, Relay.EmptyBodyAsWrittenIs500 | Relay.Decode, Relay.Handle |

=== FILE: address.dfy ===
/**
 Address shortening for the embed's From and To fields.
 */
module Address {
  import opened Json

  /** Strings up to this length are shown whole. */
  const MaxShown: nat := 12

  const Ellipsis: char := '\U{2026}'

  /** The first six characters, an ellipsis, and the last four; short strings unchanged. */
  function Shorten(s: string): (r: string)
    ensures |r| <= MaxShown
    ensures r == s <==> |s| <= MaxShown
    ensures |s| > MaxShown ==> |r| == 11 && r[6] == Ellipsis
    ensures |s| > MaxShown ==> r[..6] == s[..6] && r[7..] == s[|s| - 4..]
  {
    if |s| > MaxShown then s[..6] + [Ellipsis] + s[|s| - 4..] else s
  }

  /** `shortAddr`: anything but a non-empty string renders as "-". */
  function ShortAddr(x: JsValue): (r: string)
    ensures 0 < |r| <= MaxShown
    ensures !(x.Defined? && x.json.JStr? && |x.json.s| > 0) ==> r == "-"
    ensures x.Defined? && x.json.JStr? && |x.json.s| > 0 ==> r == Shorten(x.json.s)
  {
    if !Truthy(x) || !x.json.JStr? then "-" else Shorten(x.json.s)
  }

  /** Shortening is idempotent: a shortened address is its own short form. */
  lemma ShortAddrIdempotent(x: JsValue)
    ensures ShortAddr(Str(ShortAddr(x))) == ShortAddr(x)
  {
  }

  /** An address longer than twelve characters shows its first six and last four. */
  lemma ShortenKeepsEnds(head: string, middle: string, tail: string)
    requires |head| == 6 && |tail| == 4 && |middle| > 2
    ensures ShortAddr(Str(head + middle + tail)) == head + [Ellipsis] + tail
  {
    var s := head + middle + tail;
    assert s[..6] == head;
    assert s[|s| - 4..] == tail;
  }
}

=== FILE: extract.dfy ===
/**
 The field extractor: from a decoded payload to a normalised event in which
 every field has a value. Each field is the first truthy alternative in a fixed
 key order, else a default; truthiness, not presence, decides, so `0`, `""`,
 `false` and `null` are skipped like a missing key.
 */
module Extract {
  import opened Json
  import opened Host
  import opened ParseInt
  import opened Timestamp

  /** The normalised activity event. Field values stay JSON values: the
      relay prints whatever it finds, string or not. */
  datatype Event = Event(
    from: JValue,
    to: JValue,
    hash: JValue,
    value: JValue,
    asset: JValue,
    category: JValue,
    block: JValue,
    timestamp: string)

  const Dash: JValue := JStr("-")
  const NativeAsset: JValue := JStr("ETH")
  const DefaultDecimals: JValue := JNum(Finite(18.0))
  const Zero: JValue := JNum(Finite(0.0))

  /** No field is absent: the labels are truthy and the value is not null. */
  predicate WellFormed(e: Event) {
    && Truthy(Defined(e.from)) && Truthy(Defined(e.to)) && Truthy(Defined(e.hash))
    && !e.value.JNull?
    && Truthy(Defined(e.asset)) && Truthy(Defined(e.category)) && Truthy(Defined(e.block))
  }

  /** `data.event || {}` */
  function EventRoot(data: JValue): (root: JValue)
    requires !data.JNull?
    ensures Truthy(Defined(root))
    ensures Truthy(Get(data, "event")) ==> root == data.members["event"]
    ensures !Truthy(Get(data, "event")) ==> root == EmptyObject
  {
    Or(Get(data, "event"), Defined(EmptyObject)).json
  }

  /** `Array.isArray(root.activity) ? root.activity : []` */
  function Activities(root: JValue): (xs: seq<JValue>)
    requires !root.JNull?
    ensures Get(root, "activity").Defined? && Get(root, "activity").json.JArr? ==>
      xs == Get(root, "activity").json.elems
    ensures !(Get(root, "activity").Defined? && Get(root, "activity").json.JArr?) ==> xs == []
  {
    match Get(root, "activity")
    case Defined(JArr(xs)) => xs
    case _ => []
  }

  /** `activities[0] || {}` */
  function FirstActivity(root: JValue): (evt: JValue)
    requires !root.JNull?
    ensures Truthy(Defined(evt))
    ensures var xs := Activities(root);
      if |xs| > 0 && Truthy(Defined(xs[0])) then evt == xs[0] else evt == EmptyObject
  {
    var xs := Activities(root);
    var first := if |xs| > 0 then Defined(xs[0]) else Undefined;
    Or(first, Defined(EmptyObject)).json
  }

  /** A field chain whose last alternative is a truthy default always yields a truthy JSON value. */
  function Pick(alternatives: seq<JsValue>): (r: JValue)
    requires |alternatives| > 0 && Truthy(alternatives[|alternatives| - 1])
    ensures Truthy(Defined(r))
    ensures SelectsFirstTruthy(alternatives, Defined(r))
  {
    OrChain(alternatives).json
  }

  function FromCandidates(evt: JValue): seq<JsValue>
    requires !evt.JNull?
  {
    [Get(evt, "fromAddress"), Get(evt, "from"), Defined(Dash)]
  }

  function ToCandidates(evt: JValue): seq<JsValue>
    requires !evt.JNull?
  {
    [Get(evt, "toAddress"), Get(evt, "to"), Defined(Dash)]
  }

  function HashCandidates(evt: JValue): seq<JsValue>
    requires !evt.JNull?
  {
    [Get(evt, "hash"), Get(evt, "transactionHash"), Get(evt, "txHash"), Defined(Dash)]
  }

  /** `evt.rawContract && evt.rawContract.<key>` */
  function RawContractMember(evt: JValue, key: string): (r: JsValue)
    requires !evt.JNull?
    ensures Truthy(r) ==> Truthy(Get(evt, "rawContract"))
    ensures Truthy(Get(evt, "rawContract")) ==> r == Get(Get(evt, "rawContract").json, key)
  {
    var rc := Get(evt, "rawContract");
    if Truthy(rc) then Get(rc.json, key) else rc
  }

  function AssetCandidates(evt: JValue): seq<JsValue>
    requires !evt.JNull?
  {
    [Get(evt, "asset"), RawContractMember(evt, "asset"), Defined(NativeAsset)]
  }

  function CategoryCandidates(evt: JValue): seq<JsValue>
    requires !evt.JNull?
  {
    [Get(evt, "category"), Defined(Dash)]
  }

  function BlockCandidates(evt: JValue): seq<JsValue>
    requires !evt.JNull?
  {
    [Get(evt, "blockNum"), Defined(Dash)]
  }

  /** `evt.blockTimestamp || evtRoot.blockTimestamp || data.createdAt` */
  function TimestampCandidates(data: JValue, root: JValue, evt: JValue): (xs: seq<JsValue>)
    requires !data.JNull? && !root.JNull? && !evt.JNull?
    ensures |xs| == 3
    ensures xs[0] == Get(evt, "blockTimestamp") && xs[1] == Get(root, "blockTimestamp")
    ensures xs[2] == Get(data, "createdAt")
  {
    [Get(evt, "blockTimestamp"), Get(root, "blockTimestamp"), Get(data, "createdAt")]
  }

  /** The transaction value, by priority: a number-typed `value` verbatim;
      else, when `rawContract.rawValue` is truthy, parseInt(rawValue, 16)
      divided by 10^(decimals ?? 18), or 0 when converting the raw value or
      the decimals throws; else `value ?? 0`. */
  function ValueOf(env: Env, evt: JValue): (r: JValue)
    requires !evt.JNull?
    ensures !r.JNull?
  {
    var v := Get(evt, "value");
    if v.Defined? && v.json.JNum? then v.json
    else
      var raw := RawContractMember(evt, "rawValue");
      if Truthy(raw) then
        var rc := Get(evt, "rawContract").json;
        var decimals := Coalesce(Get(rc, "decimals"), Defined(DefaultDecimals));
        match ToText(env, raw)
        case None => Zero
        case Some(s) =>
          match ToNumber(env, decimals)
          case None => Zero
          case Some(d) => JNum(env.quotient(ParseIntHex(s), d))
      else
        Coalesce(v, Defined(Zero)).json
  }

  /** The whole extraction. Reading `data.event` throws when the payload is
      `null`; every other payload yields a well-formed event. */
  function ExtractEvent(env: Env, data: JValue): (r: Result<Event>)
    ensures r.Err? <==> data.JNull?
    ensures r.Err? ==> r.fault == NullDereference
    ensures r.Ok? ==> WellFormed(r.value)
  {
    if data.JNull? then Err(NullDereference)
    else
      var root := EventRoot(data);
      var evt := FirstActivity(root);
      Ok(Event(
        Pick(FromCandidates(evt)),
        Pick(ToCandidates(evt)),
        Pick(HashCandidates(evt)),
        ValueOf(env, evt),
        Pick(AssetCandidates(evt)),
        Pick(CategoryCandidates(evt)),
        Pick(BlockCandidates(evt)),
        ParseTimestamp(env, OrChain(TimestampCandidates(data, root, evt)))))
  }

  /** The activity event the fields are read from. */
  function ActivityOf(data: JValue): (evt: JValue)
    requires !data.JNull?
    ensures Truthy(Defined(evt))
  {
    FirstActivity(EventRoot(data))
  }

  /** Each label field is the first truthy alternative in its key order, else
      its default; the value follows its priority and the timestamp its sources. */
  lemma FieldsFollowKeyOrder(env: Env, data: JValue)
    requires !data.JNull?
    ensures var e := ExtractEvent(env, data).value; var evt := ActivityOf(data);
      && SelectsFirstTruthy(FromCandidates(evt), Defined(e.from))
      && SelectsFirstTruthy(ToCandidates(evt), Defined(e.to))
      && SelectsFirstTruthy(HashCandidates(evt), Defined(e.hash))
      && SelectsFirstTruthy(AssetCandidates(evt), Defined(e.asset))
      && SelectsFirstTruthy(CategoryCandidates(evt), Defined(e.category))
      && SelectsFirstTruthy(BlockCandidates(evt), Defined(e.block))
      && e.value == ValueOf(env, evt)
      && e.timestamp == ParseTimestamp(env, OrChain(TimestampCandidates(data, EventRoot(data), evt)))
  {
  }

  /** Truthiness, not presence, decides: a block number of 0 is skipped and shows as "-". */
  lemma ZeroBlockIsDash(env: Env, data: JValue)
    requires !data.JNull?
    requires Get(ActivityOf(data), "blockNum") == Defined(JNum(Finite(0.0)))
    ensures ExtractEvent(env, data).value.block == Dash
  {
    OnlyLastAlternative(BlockCandidates(ActivityOf(data)));
  }

  /** Nothing to read from: no truthy `event`, no `activity` array, an empty
      array, or a falsy first element. */
  predicate NoActivity(data: JValue)
    requires !data.JNull?
  {
    var xs := Activities(EventRoot(data));
    |xs| == 0 || !Truthy(Defined(xs[0]))
  }

  /** Without an activity the event is `{}`, and every field takes its default. */
  lemma NoActivityGivesDefaults(env: Env, data: JValue)
    requires !data.JNull? && NoActivity(data)
    ensures ExtractEvent(env, data).Ok?
    ensures var e := ExtractEvent(env, data).value;
      && e.from == Dash && e.to == Dash && e.hash == Dash
      && e.value == Zero && e.asset == NativeAsset
      && e.category == Dash && e.block == Dash
  {
    var evt := ActivityOf(data);
    assert evt == EmptyObject;
    OnlyLastAlternative(FromCandidates(evt));
    OnlyLastAlternative(ToCandidates(evt));
    OnlyLastAlternative(HashCandidates(evt));
    OnlyLastAlternative(AssetCandidates(evt));
    OnlyLastAlternative(CategoryCandidates(evt));
    OnlyLastAlternative(BlockCandidates(evt));
  }

  /** The activity's own `blockTimestamp` wins over the root's and over `createdAt`. */
  lemma BlockTimestampWins(env: Env, data: JValue)
    requires !data.JNull? && Truthy(Get(ActivityOf(data), "blockTimestamp"))
    ensures ExtractEvent(env, data).value.timestamp == ParseTimestamp(env, Get(ActivityOf(data), "blockTimestamp"))
  {
    FirstAlternativeTruthy(TimestampCandidates(data, EventRoot(data), ActivityOf(data)));
  }

  /** Without any timestamp source the current time is used. */
  lemma NoTimestampIsNow(env: Env, data: JValue)
    requires !data.JNull?
    requires !Truthy(Get(ActivityOf(data), "blockTimestamp"))
    requires !Truthy(Get(EventRoot(data), "blockTimestamp")) && !Truthy(Get(data, "createdAt"))
    ensures ExtractEvent(env, data).value.timestamp == env.now
  {
    OnlyLastAlternative(TimestampCandidates(data, EventRoot(data), ActivityOf(data)));
  }

  /** A number-typed `value` wins whatever `rawContract` holds. */
  lemma NumericValueWins(env: Env, evt: JValue, n: Num)
    requires evt.JObj? && "value" in evt.members && evt.members["value"] == JNum(n)
    ensures ValueOf(env, evt) == JNum(n)
  {
  }

  /** Without a number-typed `value` or a truthy raw value, `value ?? 0`:
      any other non-null value passes through as it is, and a missing or
      null one becomes 0. */
  lemma PlainValuePassesThrough(env: Env, evt: JValue)
    requires !evt.JNull?
    requires !(Get(evt, "value").Defined? && Get(evt, "value").json.JNum?)
    requires !Truthy(RawContractMember(evt, "rawValue"))
    ensures Nullish(Get(evt, "value")) ==> ValueOf(env, evt) == Zero
    ensures !Nullish(Get(evt, "value")) ==> ValueOf(env, evt) == Get(evt, "value").json
  {
  }

  /** On the raw path a non-numeric `value` plays no part: removing it changes nothing. */
  lemma RawPathIgnoresValue(env: Env, evt: JValue)
    requires evt.JObj? && Truthy(RawContractMember(evt, "rawValue"))
    requires "value" in evt.members && !evt.members["value"].JNum?
    ensures ValueOf(env, evt) == ValueOf(env, JObj(evt.members - {"value"}))
  {
    var stripped := JObj(evt.members - {"value"});
    assert Get(stripped, "rawContract") == Get(evt, "rawContract");
    assert RawContractMember(stripped, "rawValue") == RawContractMember(evt, "rawValue");
  }

  /** The decimals the raw path divides by, `rawContract.decimals ?? 18`,
      as a number; None when converting it throws. */
  function RawDecimals(env: Env, evt: JValue): Option<Num>
    requires evt.JObj? && "rawContract" in evt.members && evt.members["rawContract"].JObj?
  {
    ToNumber(env, Coalesce(Get(evt.members["rawContract"], "decimals"), Defined(DefaultDecimals)))
  }

  /** On the raw path the value is parseInt of the raw value's text over the
      decimals; when either conversion throws, the `catch` gives 0. */
  lemma RawPath(env: Env, evt: JValue, raw: JValue)
    requires evt.JObj? && "rawContract" in evt.members && evt.members["rawContract"].JObj?
    requires var rc := evt.members["rawContract"].members;
      "rawValue" in rc && rc["rawValue"] == raw && Truthy(Defined(raw))
    requires !("value" in evt.members && evt.members["value"].JNum?)
    ensures var t := ToText(env, Defined(raw)); var d := RawDecimals(env, evt);
      && (t.Some? && d.Some? ==> ValueOf(env, evt) == JNum(env.quotient(ParseIntHex(t.value), d.value)))
      && (t.None? || d.None? ==> ValueOf(env, evt) == Zero)
  {
    assert RawContractMember(evt, "rawValue") == Defined(raw);
  }

  /** `decimals ?? 18`: an explicit 0 is kept; only a missing or null one becomes 18. */
  lemma DecimalsDefault(env: Env, evt: JValue, rc: map<string, JValue>)
    requires evt.JObj? && "rawContract" in evt.members && evt.members["rawContract"] == JObj(rc)
    requires "rawValue" in rc && Truthy(Defined(rc["rawValue"]))
    requires !("value" in evt.members && evt.members["value"].JNum?)
    ensures var t := ToText(env, Defined(rc["rawValue"]));
      && ("decimals" in rc && rc["decimals"] == JNum(Finite(0.0)) && t.Some? ==>
            ValueOf(env, evt) == JNum(env.quotient(ParseIntHex(t.value), Finite(0.0))))
      && (("decimals" !in rc || rc["decimals"] == JNull) && t.Some? ==>
            ValueOf(env, evt) == JNum(env.quotient(ParseIntHex(t.value), Finite(18.0))))
  {
    RawPath(env, evt, rc["rawValue"]);
    if "decimals" in rc && rc["decimals"] == JNum(Finite(0.0)) {
      assert RawDecimals(env, evt) == Some(Finite(0.0));
    } else if "decimals" !in rc || rc["decimals"] == JNull {
      assert RawDecimals(env, evt) == Some(Finite(18.0));
    }
  }

  /** A "0x" raw value is read back exactly before the division. */
  lemma RawHexValueRoundTrip(env: Env, evt: JValue, n: nat)
    requires evt.JObj? && "rawContract" in evt.members && evt.members["rawContract"].JObj?
    requires var rc := evt.members["rawContract"].members;
      "rawValue" in rc && rc["rawValue"] == JStr("0x" + ToHex(n))
    requires !("value" in evt.members && evt.members["value"].JNum?)
    ensures var d := RawDecimals(env, evt);
      && (d.Some? ==> ValueOf(env, evt) == JNum(env.quotient(Finite(n as real), d.value)))
      && (d.None? ==> ValueOf(env, evt) == Zero)
  {
    var s := "0x" + ToHex(n);
    assert s == "0x" + ToHex(n) + "";
    ParseIntHexRoundTrip(n, "");
    RawPath(env, evt, JStr(s));
  }

  /** A raw string with no hexadecimal digits yields the quotient of NaN, not
      0: parseInt returns NaN instead of throwing. */
  lemma InvalidRawValueIsNaN(env: Env, evt: JValue, rest: string)
    requires evt.JObj? && "rawContract" in evt.members && evt.members["rawContract"].JObj?
    requires var rc := evt.members["rawContract"].members;
      "rawValue" in rc && rc["rawValue"] == JStr("0x" + rest)
    requires |rest| == 0 || !IsHexDigit(rest[0])
    requires !("value" in evt.members && evt.members["value"].JNum?)
    ensures var d := RawDecimals(env, evt);
      && (d.Some? ==> ValueOf(env, evt) == JNum(env.quotient(NaN, d.value)))
      && (d.None? ==> ValueOf(env, evt) == Zero)
  {
    PrefixWithoutDigitsIsNaN(rest);
    RawPath(env, evt, JStr("0x" + rest));
  }

  /** A raw value that cannot be converted to a string (an object with a
      "toString" member) makes parseInt throw, and the `catch` gives 0. */
  lemma UnconvertibleRawValueIsZero(env: Env, evt: JValue, m: map<string, JValue>)
    requires evt.JObj? && "rawContract" in evt.members && evt.members["rawContract"].JObj?
    requires var rc := evt.members["rawContract"].members;
      "rawValue" in rc && rc["rawValue"] == JObj(m)
    requires "toString" in m
    requires !("value" in evt.members && evt.members["value"].JNum?)
    ensures ValueOf(env, evt) == Zero
  {
    RawPath(env, evt, JObj(m));
  }
}

=== FILE: format.dfy ===
/**
 The message formatter: the rich embed sent first, and the plain-text
 fallback sent when the embed is refused.
 */
module Format {
  import opened Json
  import opened Host
  import opened Address
  import opened Extract

  datatype Field = Field(name: string, value: string, inline: bool)

  datatype Embed = Embed(
    title: string,
    description: string,
    color: int,
    fields: seq<Field>,
    footer: string,
    timestamp: string)

  const Title: string := "\U{1F514} New Transaction Detected"
  const ExplorerTxUrl: string := "https://basescan.org/tx/"
  const Color: int := 5814783
  const Footer: string := "Alchemy \U{2192} Cloudflare Worker"

  /** The embed's fields, in display order, and which of them sit inline. */
  const FieldNames: seq<string> := ["From", "To", "Hash", "Value", "Category", "Block"]
  const FieldInline: seq<bool> := [true, true, false, true, true, true]

  /** The fallback message quotes at most this much of the serialised payload. */
  const RawLimit: nat := 1900

  /** Inline code in the chat platform's markdown. */
  function Code(s: string): string {
    "`" + s + "`"
  }

  /** The Hash field: a bare "-" for the default, the hash as inline code otherwise. */
  function HashText(env: Env, hash: JValue): (t: string)
    ensures t == "-" <==> hash == Dash
  {
    if hash != Dash then Code(JsonText(env, hash)) else "-"
  }

  /** `${value} ${asset}`: the value's text, one space, the asset's text. */
  function AmountText(env: Env, e: Event): (t: string)
    ensures var v := JsonText(env, e.value); var a := JsonText(env, e.asset);
      && |t| == |v| + 1 + |a| && t[..|v|] == v && t[|v|] == ' ' && t[|v| + 1..] == a
  {
    JsonText(env, e.value) + " " + JsonText(env, e.asset)
  }

  /** The fields the embed prints with a template literal all convert to
      strings. From and To go through shortAddr, which converts nothing. */
  predicate Renderable(e: Event) {
    && Printable(e.hash) && Printable(e.value) && Printable(e.asset)
    && Printable(e.category) && Printable(e.block)
  }

  /** The embed; building it throws when a printed field cannot be converted. */
  function BuildEmbed(env: Env, e: Event): (r: Result<Embed>)
    ensures r.Ok? <==> Renderable(e)
    ensures r.Err? ==> r.fault == NotPrimitive
    ensures r.Ok? ==> |r.value.fields| == |FieldNames|
    ensures r.Ok? ==> forall i :: 0 <= i < |r.value.fields| ==> r.value.fields[i].name == FieldNames[i]
    ensures r.Ok? ==> forall i :: 0 <= i < |r.value.fields| ==> r.value.fields[i].inline == FieldInline[i]
    ensures r.Ok? ==> r.value.timestamp == e.timestamp
  {
    if !Renderable(e) then Err(NotPrimitive)
    else
      Ok(Embed(
        Title,
        "[View on block explorer](" + ExplorerTxUrl + JsonText(env, e.hash) + ")",
        Color,
        [ Field("From", Code(ShortAddr(Defined(e.from))), true),
          Field("To", Code(ShortAddr(Defined(e.to))), true),
          Field("Hash", HashText(env, e.hash), false),
          Field("Value", AmountText(env, e), true),
          Field("Category", JsonText(env, e.category), true),
          Field("Block", JsonText(env, e.block), true) ],
        Footer,
        e.timestamp))
  }

  /** The value of the field with the given name, if any. */
  function FieldValue(fields: seq<Field>, name: string): Option<string> {
    if |fields| == 0 then None
    else if fields[0].name == name then Some(fields[0].value)
    else FieldValue(fields[1..], name)
  }

  /** Field names never repeat, so looking a field up by name is unambiguous. */
  lemma FieldNamesDistinct()
    ensures forall i, j :: 0 <= i < j < |FieldNames| ==> FieldNames[i] != FieldNames[j]
  {
  }

  /** The From and To fields show the shortened addresses as inline code, at most 14 characters. */
  lemma AddressFieldsShortened(env: Env, e: Event)
    requires Renderable(e)
    ensures var m := BuildEmbed(env, e).value;
      && FieldValue(m.fields, "From") == Some(Code(ShortAddr(Defined(e.from))))
      && FieldValue(m.fields, "To") == Some(Code(ShortAddr(Defined(e.to))))
      && |m.fields[0].value| <= MaxShown + 2 && |m.fields[1].value| <= MaxShown + 2
  {
  }

  /** The Hash field is a bare "-" exactly when the hash is the default, and
      otherwise the hash wrapped in backticks. */
  lemma HashFieldRoundTrip(env: Env, e: Event)
    requires Renderable(e)
    ensures var v := BuildEmbed(env, e).value.fields[2].value;
      && (v == "-" <==> e.hash == Dash)
      && (e.hash != Dash ==> v == Code(JsonText(env, e.hash)))
      && (e.hash.JStr? && e.hash != Dash ==>
            |v| >= 2 && v[0] == '`' && v[|v| - 1] == '`' && v[1..|v| - 1] == e.hash.s)
  {
  }

  /** The Value, Category and Block fields print the amount, the category and
      the block as template literals; a defaulted category or block shows "-". */
  lemma EmbedFieldValues(env: Env, e: Event)
    requires Renderable(e)
    ensures var f := BuildEmbed(env, e).value.fields;
      && f[3].value == AmountText(env, e)
      && f[4].value == JsonText(env, e.category)
      && f[5].value == JsonText(env, e.block)
      && (e.category == Dash ==> f[4].value == "-")
      && (e.block == Dash ==> f[5].value == "-")
  {
  }

  /** A block number of 0 is skipped by `||` and the embed's Block field shows "-". */
  lemma ZeroBlockShowsDash(env: Env, data: JValue)
    requires !data.JNull?
    requires Get(ActivityOf(data), "blockNum") == Defined(JNum(Finite(0.0)))
    requires Renderable(ExtractEvent(env, data).value)
    ensures var f := BuildEmbed(env, ExtractEvent(env, data).value).value.fields;
      f[5].name == "Block" && f[5].value == "-"
  {
    ZeroBlockIsDash(env, data);
    EmbedFieldValues(env, ExtractEvent(env, data).value);
  }

  /** The explorer link ends with the hash, even when the hash is "-". */
  lemma DescriptionLinksHash(env: Env, e: Event)
    requires Renderable(e)
    ensures var d := BuildEmbed(env, e).value.description; var h := JsonText(env, e.hash);
      && |d| >= |h| + 1
      && d[|d| - |h| - 1..|d| - 1] == h
      && d[|d| - |h| - 1 - |ExplorerTxUrl|..|d| - |h| - 1] == ExplorerTxUrl
  {
  }

  /** `s.slice(0, n)` */
  function Truncate(s: string, n: nat): (r: string)
    ensures r <= s
    ensures |r| == if |s| <= n then |s| else n
  {
    if |s| <= n then s else s[..n]
  }

  /** The serialised payload quoted in the fallback: a prefix of it, whole when it fits. */
  function RawDump(env: Env, data: JValue): (d: string)
    ensures |d| <= RawLimit
    ensures d <= env.stringify(data)
    ensures |env.stringify(data)| <= RawLimit ==> d == env.stringify(data)
  {
    Truncate(env.stringify(data), RawLimit)
  }

  /** The fields the fallback prints convert to strings. */
  predicate Summarisable(e: Event) {
    && Printable(e.from) && Printable(e.to) && Printable(e.hash)
    && Printable(e.value) && Printable(e.asset) && Printable(e.block)
  }

  /** The plain-text fallback: the unshortened summary lines, then the raw
      dump. Building it throws when a printed field cannot be converted. */
  function FallbackText(env: Env, e: Event, data: JValue): (r: Result<string>)
    ensures r.Ok? <==> Summarisable(e)
    ensures r.Err? ==> r.fault == NotPrimitive
    ensures r.Ok? ==> (r.value ==
      "New TX Event:" + "\nFrom: " + JsonText(env, e.from) + "\nTo: " + JsonText(env, e.to)
      + "\nHash: " + JsonText(env, e.hash) + "\nValue: " + AmountText(env, e)
      + "\nBlock: " + JsonText(env, e.block) + "\nRaw: " + RawDump(env, data))
    ensures r.Ok? ==> "New TX Event:" <= r.value
    ensures r.Ok? ==> var d := RawDump(env, data); |d| <= |r.value| && r.value[|r.value| - |d|..] == d
  {
    if !Summarisable(e) then Err(NotPrimitive)
    else
      var head := "New TX Event:" + "\nFrom: " + JsonText(env, e.from) + "\nTo: " + JsonText(env, e.to)
        + "\nHash: " + JsonText(env, e.hash) + "\nValue: " + AmountText(env, e)
        + "\nBlock: " + JsonText(env, e.block) + "\nRaw: ";
      assert "New TX Event:" <= head;
      Ok(head + RawDump(env, data))
  }
}

=== FILE: host.dfy ===
/**
 The parts of the JavaScript runtime the relay leans on. Everything the model
 does not compute itself (the clock, floating-point formatting and division,
 JSON serialisation, Date's ISO formatter) is a field of `Env`; the
 conversions the language defines on JSON values (ToString, ToNumber) are
 written out, down to the point where they reach a floating-point routine.
 */
module Host {
  import opened Json

  datatype Option<T> = None | Some(value: T)

  /** The exceptions the relay can meet. */
  datatype Fault =
    | SyntaxError       // JSON.parse / Body.json() on text that is not JSON
    | BodyAlreadyUsed   // reading a request body a second time
    | NullDereference   // reading a property of null
    | NetworkFailure    // fetch() rejected
    | NotPrimitive      // TypeError: an object that ToPrimitive cannot convert

  datatype Result<T> = Ok(value: T) | Err(fault: Fault)

  /** The runtime collaborators, passed in rather than called. */
  datatype Env = Env(
    now: string,                    // new Date().toISOString() at the time of the request
    isoText: int -> string,         // Date.prototype.toISOString of a valid time value (ms since epoch)
    numberText: real -> string,     // Number::toString of a finite number
    stringToNumber: string -> Num,  // StringToNumber, the grammar Number("...") accepts
    quotient: (Num, Num) -> Num,    // v / Math.pow(10, d) in IEEE-754 double arithmetic
    stringify: JValue -> string,    // JSON.stringify
    parse: string -> Option<JValue>,// JSON.parse, None when it throws
    describe: Fault -> string       // err.toString()
  )

  /** Number::toString: the non-finite values have fixed spellings. */
  function NumberText(env: Env, n: Num): string {
    match n
    case NaN => "NaN"
    case Infinity(negative) => if negative then "-Infinity" else "Infinity"
    case Finite(r) => env.numberText(r)
  }

  /** JSON.parse. The JSON grammar has no empty text, so "" is always rejected. */
  function ParseJson(env: Env, s: string): (r: Option<JValue>)
    ensures s == "" ==> r == None
  {
    if s == "" then None else env.parse(s)
  }

  /** Whether ToPrimitive, and so ToString and ToNumber, succeeds on a JSON
      value. JSON.parse makes every member an own, non-callable property: an
      object with a member named "toString" hides the callable one it would
      inherit, its inherited valueOf returns the object itself, and the
      conversion throws a TypeError. An array converts through join, which
      converts each element. */
  predicate Printable(v: JValue)
    decreases v
  {
    match v
    case JArr(xs) => forall i :: 0 <= i < |xs| ==> Printable(xs[i])
    case JObj(m) => "toString" !in m
    case _ => true
  }

  /** The text ToString gives a printable JSON value. Arrays print as their
      elements joined with commas, `null` elements printing as nothing;
      objects print as "[object Object]". */
  function JsonText(env: Env, v: JValue): (t: string)
    ensures v.JStr? ==> t == v.s
    ensures v.JObj? ==> t == "[object Object]"
    ensures v.JArr? && |v.elems| == 0 ==> t == ""
    ensures v.JArr? && |v.elems| == 1 && !v.elems[0].JNull? ==> t == JsonText(env, v.elems[0])
    decreases v
  {
    match v
    case JNull => "null"
    case JBool(b) => if b then "true" else "false"
    case JNum(n) => NumberText(env, n)
    case JStr(s) => s
    case JArr(xs) => JoinComma(seq(|xs|, i requires 0 <= i < |xs| => if xs[i].JNull? then "" else JsonText(env, xs[i])))
    case JObj(_) => "[object Object]"
  }

  /** Appending an element to a non-empty array appends a comma and the
      element's text, so the elements print in order, separated by commas. */
  lemma ArrayTextAppend(env: Env, xs: seq<JValue>, x: JValue)
    requires |xs| > 0
    ensures JsonText(env, JArr(xs + [x]))
      == JsonText(env, JArr(xs)) + "," + (if x.JNull? then "" else JsonText(env, x))
  {
    var ys := xs + [x];
    var parts := seq(|ys|, i requires 0 <= i < |ys| => if ys[i].JNull? then "" else JsonText(env, ys[i]));
    var front := seq(|xs|, i requires 0 <= i < |xs| => if xs[i].JNull? then "" else JsonText(env, xs[i]));
    assert parts[..|parts| - 1] == front;
  }

  /** Array.prototype.join with the default separator. */
  function JoinComma(parts: seq<string>): string {
    if |parts| == 0 then ""
    else if |parts| == 1 then parts[0]
    else JoinComma(parts[..|parts| - 1]) + "," + parts[|parts| - 1]
  }

  /** ToString of a value as a property read produced it, which is also what
      a template literal `${x}` inserts; None where the conversion throws. */
  function ToText(env: Env, x: JsValue): (r: Option<string>)
    ensures r.Some? <==> x.Undefined? || Printable(x.json)
    ensures x.Defined? && x.json.JStr? ==> r == Some(x.json.s)
  {
    match x
    case Undefined => Some("undefined")
    case Defined(v) => if Printable(v) then Some(JsonText(env, v)) else None
  }

  /** ToNumber; None where the conversion throws. An array or object goes
      through ToPrimitive, which for a printable value is its ToString, then
      through StringToNumber. */
  function ToNumber(env: Env, x: JsValue): (r: Option<Num>)
    ensures r.None? <==> x.Defined? && !Printable(x.json)
    ensures x.Defined? && x.json.JNum? ==> r == Some(x.json.n)
    ensures x == Undefined ==> r == Some(NaN)
    ensures x == Defined(JNull) ==> r == Some(Finite(0.0))
  {
    match x
    case Undefined => Some(NaN)
    case Defined(v) =>
      if !Printable(v) then None
      else
        match v
        case JNull => Some(Finite(0.0))
        case JBool(b) => if b then Some(Finite(1.0)) else Some(Finite(0.0))
        case JNum(n) => Some(n)
        case JStr(s) => Some(env.stringToNumber(s))
        case JArr(_) => Some(env.stringToNumber(JsonText(env, v)))
        case JObj(_) => Some(env.stringToNumber(JsonText(env, v)))
  }
}

=== FILE: json.dfy ===
/**
 JSON values as the relay receives them, JavaScript truthiness, and the two
 operators the relay uses to pick fields: `a || b` and `a ?? b`. The one
 `a && b` the relay uses is modelled where it occurs, in `Extract`.
 */
module Json {

  /** A JavaScript number. The sign of zero is not tracked: the relay never
      observes it (both zeros are falsy and print as "0"). */
  datatype Num = NaN | Infinity(negative: bool) | Finite(r: real)

  /** A value produced by JSON.parse. Object member order is not tracked. */
  datatype JValue =
    | JNull
    | JBool(b: bool)
    | JNum(n: Num)
    | JStr(s: string)
    | JArr(elems: seq<JValue>)
    | JObj(members: map<string, JValue>)

  /** What a property read yields: `undefined` for a missing member, otherwise a JSON value. */
  datatype JsValue = Undefined | Defined(json: JValue)

  const EmptyObject: JValue := JObj(map[])

  function Str(s: string): JsValue {
    Defined(JStr(s))
  }

  /** JavaScript's ToBoolean: `undefined`, `null`, `false`, `0`, `NaN` and `""` are falsy. */
  predicate Truthy(x: JsValue)
    ensures !Truthy(x) <==>
      || x == Undefined || x == Defined(JNull) || x == Defined(JBool(false))
      || x == Defined(JNum(NaN)) || x == Defined(JNum(Finite(0.0))) || x == Defined(JStr(""))
  {
    match x
    case Undefined => false
    case Defined(v) =>
      match v
      case JNull => false
      case JBool(b) => b
      case JNum(n) => n.Infinity? || (n.Finite? && n.r != 0.0)
      case JStr(s) => |s| > 0
      case JArr(_) => true
      case JObj(_) => true
  }

  /** The values `??` replaces: `undefined` and `null`. */
  predicate Nullish(x: JsValue) {
    x.Undefined? || x.json.JNull?
  }

  /** The property read `v.key`. Reading a property of `null` throws, so the
      caller must rule it out; numbers, strings, booleans and arrays have none
      of the members the relay reads. */
  function Get(v: JValue, key: string): (r: JsValue)
    requires !v.JNull?
    ensures r.Defined? ==> v.JObj? && key in v.members && r.json == v.members[key]
    ensures v.JObj? && key in v.members ==> r == Defined(v.members[key])
  {
    if v.JObj? && key in v.members then Defined(v.members[key]) else Undefined
  }

  /** `a || b` */
  function Or(a: JsValue, b: JsValue): JsValue {
    if Truthy(a) then a else b
  }

  /** `a ?? b` */
  function Coalesce(a: JsValue, b: JsValue): (r: JsValue)
    ensures !Nullish(a) ==> r == a
    ensures Nullish(a) ==> r == b
  {
    if Nullish(a) then b else a
  }

  /** `i` is the position of the first truthy alternative in `xs`. */
  ghost predicate IsFirstTruthy(xs: seq<JsValue>, i: int) {
    && 0 <= i < |xs|
    && Truthy(xs[i])
    && forall j :: 0 <= j < i ==> !Truthy(xs[j])
  }

  /** The meaning of `xs[0] || xs[1] || ... || xs[n-1]`: the first truthy
      alternative, or the last alternative when none is truthy. */
  ghost predicate SelectsFirstTruthy(xs: seq<JsValue>, r: JsValue)
    requires |xs| > 0
  {
    || (exists i :: IsFirstTruthy(xs, i) && r == xs[i])
    || ((forall i :: 0 <= i < |xs| ==> !Truthy(xs[i])) && r == xs[|xs| - 1])
  }

  /** The left-nested chain `((xs[0] || xs[1]) || ...) || xs[n-1]`, evaluated as JavaScript does. */
  function OrChain(xs: seq<JsValue>): (r: JsValue)
    requires |xs| > 0
    ensures SelectsFirstTruthy(xs, r)
    ensures Truthy(xs[|xs| - 1]) ==> Truthy(r)
    decreases |xs|
  {
    if |xs| == 1 then
      assert IsFirstTruthy(xs, 0) || !Truthy(xs[0]);
      xs[0]
    else
      var init := xs[..|xs| - 1];
      var left := OrChain(init);
      OrStepSelects(xs, left);
      Or(left, xs[|xs| - 1])
  }

  /** One step of the chain: if `left` is what the first n-1 alternatives
      select, `left || last` is what all n select. */
  lemma OrStepSelects(xs: seq<JsValue>, left: JsValue)
    requires |xs| > 1
    requires SelectsFirstTruthy(xs[..|xs| - 1], left)
    ensures SelectsFirstTruthy(xs, Or(left, xs[|xs| - 1]))
    ensures Truthy(xs[|xs| - 1]) ==> Truthy(Or(left, xs[|xs| - 1]))
  {
    var init := xs[..|xs| - 1];
    var last := |xs| - 1;
    if Truthy(left) {
      var i :| IsFirstTruthy(init, i) && left == init[i];
      assert IsFirstTruthy(xs, i);
    } else {
      assert forall k :: 0 <= k < last ==> xs[k] == init[k];
      if Truthy(xs[last]) {
        assert IsFirstTruthy(xs, last);
      }
    }
  }

  /** The first-truthy selection is a function of the alternatives: a chain
      has exactly one possible result. */
  lemma SelectionIsUnique(xs: seq<JsValue>, r1: JsValue, r2: JsValue)
    requires |xs| > 0
    requires SelectsFirstTruthy(xs, r1) && SelectsFirstTruthy(xs, r2)
    ensures r1 == r2
  {
    if i :| IsFirstTruthy(xs, i) {
      assert forall j :: IsFirstTruthy(xs, j) ==> j == i;
    }
  }

  /** When only the last alternative can be truthy, the chain yields it. */
  lemma {:induction false} OnlyLastAlternative(xs: seq<JsValue>)
    requires |xs| > 0
    requires forall i :: 0 <= i < |xs| - 1 ==> !Truthy(xs[i])
    ensures OrChain(xs) == xs[|xs| - 1]
  {
    var r := OrChain(xs);
    if Truthy(r) {
      var i :| IsFirstTruthy(xs, i) && r == xs[i];
      assert i == |xs| - 1;
    }
  }

  /** A truthy first alternative short-circuits the chain. */
  lemma {:induction false} FirstAlternativeTruthy(xs: seq<JsValue>)
    requires |xs| > 0 && Truthy(xs[0])
    ensures OrChain(xs) == xs[0]
  {
    assert IsFirstTruthy(xs, 0);
    SelectionIsUnique(xs, OrChain(xs), xs[0]);
  }
}

=== FILE: parse_int.dfy ===
/**
 `parseInt(s, 16)` as ECMAScript defines it (section 19.2.5 of ECMA-262):
 skip leading white space, take an optional sign, drop a "0x"/"0X" prefix,
 read the longest run of hexadecimal digits, and return NaN when that run is
 empty. Everything after the run is ignored. The value is computed exactly;
 rounding to the nearest double above 2^53 is not modelled.
 */
module ParseInt {
  import opened Json

  predicate IsHexDigit(c: char) {
    ('0' <= c <= '9') || ('a' <= c <= 'f') || ('A' <= c <= 'F')
  }

  predicate AllHex(s: string) {
    forall i :: 0 <= i < |s| ==> IsHexDigit(s[i])
  }

  function DigitValue(c: char): (d: nat)
    requires IsHexDigit(c)
    ensures d < 16
  {
    if '0' <= c <= '9' then c as int - '0' as int
    else if 'a' <= c <= 'f' then c as int - 'a' as int + 10
    else c as int - 'A' as int + 10
  }

  /** StrWhiteSpaceChar: the WhiteSpace and LineTerminator code points, the
      space separators (category Zs) included. */
  predicate IsWhiteSpace(c: char) {
    || c == '\t' || c == '\n' || c == '\U{B}' || c == '\U{C}' || c == '\r'
    || c == ' ' || c == '\U{A0}' || c == '\U{1680}'
    || ('\U{2000}' <= c <= '\U{200A}')
    || c == '\U{2028}' || c == '\U{2029}' || c == '\U{202F}' || c == '\U{205F}'
    || c == '\U{3000}' || c == '\U{FEFF}'
  }

  /** The string with its leading white space removed. */
  function TrimStart(s: string): (t: string)
    ensures |t| <= |s| && t == s[|s| - |t|..]
    ensures forall i :: 0 <= i < |s| - |t| ==> IsWhiteSpace(s[i])
    ensures |t| == 0 || !IsWhiteSpace(t[0])
  {
    if |s| > 0 && IsWhiteSpace(s[0]) then TrimStart(s[1..]) else s
  }

  /** Length of the longest prefix made of hexadecimal digits. */
  function HexRunLength(s: string): (n: nat)
    ensures n <= |s|
    ensures AllHex(s[..n])
    ensures n == |s| || !IsHexDigit(s[n])
  {
    if |s| == 0 || !IsHexDigit(s[0]) then 0
    else
      var n := 1 + HexRunLength(s[1..]);
      assert s[..n] == [s[0]] + s[1..][..n - 1];
      n
  }

  /** The number a run of hexadecimal digits denotes, most significant first. */
  function HexValue(ds: string): nat
    requires AllHex(ds)
  {
    if |ds| == 0 then 0
    else HexValue(ds[..|ds| - 1]) * 16 + DigitValue(ds[|ds| - 1])
  }

  /** What remains after the sign: a leading '-' or '+' is consumed. */
  function AfterSign(s: string): string {
    if |s| > 0 && (s[0] == '-' || s[0] == '+') then s[1..] else s
  }

  /** With radix 16 a "0x" or "0X" prefix is stripped before the digits. */
  function AfterPrefix(s: string): string {
    if |s| >= 2 && s[0] == '0' && (s[1] == 'x' || s[1] == 'X') then s[2..] else s
  }

  /** The digits parseInt(s, 16) reads: the longest hexadecimal run after
      white space, sign and prefix. */
  function DigitsRead(s: string): (ds: string)
    ensures AllHex(ds)
  {
    var w := AfterPrefix(AfterSign(TrimStart(s)));
    w[..HexRunLength(w)]
  }

  /** A '-' sign follows the leading white space. */
  predicate IsNegative(s: string) {
    var t := TrimStart(s);
    |t| > 0 && t[0] == '-'
  }

  function ParseIntHex(s: string): (r: Num)
    ensures r.NaN? || r.Finite?
    ensures r.NaN? <==> DigitsRead(s) == []
    ensures r.Finite? ==> r.r == (if IsNegative(s) then -1 else 1) as real * HexValue(DigitsRead(s)) as real
  {
    var t := TrimStart(s);
    var negative := IsNegative(s);
    var w := AfterPrefix(AfterSign(t));
    var n := HexRunLength(w);
    if n == 0 then NaN
    else
      var magnitude := HexValue(w[..n]) as real;
      Finite(if negative then -magnitude else magnitude)
  }

  /** Lower-case hexadecimal spelling of `n` without leading zeros. */
  function ToHex(n: nat): (s: string)
    ensures |s| > 0 && AllHex(s)
    decreases n
  {
    var d := n % 16;
    var c := if d < 10 then ('0' as int + d) as char else ('a' as int + d - 10) as char;
    if n < 16 then [c] else ToHex(n / 16) + [c]
  }

  lemma {:induction false} HexValueOfToHex(n: nat)
    ensures HexValue(ToHex(n)) == n
    decreases n
  {
    var s := ToHex(n);
    var d := n % 16;
    assert DigitValue(s[|s| - 1]) == d;
    if n >= 16 {
      assert s[..|s| - 1] == ToHex(n / 16);
      HexValueOfToHex(n / 16);
    }
  }

  lemma {:induction false} HexRunStopsAtNonDigit(ds: string, rest: string)
    requires AllHex(ds)
    requires |rest| == 0 || !IsHexDigit(rest[0])
    ensures HexRunLength(ds + rest) == |ds|
    decreases |ds|
  {
    if |ds| > 0 {
      assert (ds + rest)[1..] == ds[1..] + rest;
      HexRunStopsAtNonDigit(ds[1..], rest);
    } else {
      assert ds + rest == rest;
    }
  }

  /** The digits read from a "0x" spelling are the spelled digits. */
  lemma DigitsReadOfSpelling(digits: string, rest: string)
    requires AllHex(digits)
    requires |rest| == 0 || !IsHexDigit(rest[0])
    ensures DigitsRead("0x" + (digits + rest)) == digits
    ensures !IsNegative("0x" + (digits + rest))
  {
    var w := digits + rest;
    var s := "0x" + w;
    assert s[0] == '0' && s[1] == 'x' && s[2..] == w;
    assert TrimStart(s) == s;
    assert AfterSign(s) == s;
    assert AfterPrefix(s) == w;
    HexRunStopsAtNonDigit(digits, rest);
    assert w[..|digits|] == digits;
  }

  /** A "0x" spelling followed by text that does not continue the digits
      parses to the value of the digits. */
  lemma ParseHexSpelling(digits: string, rest: string)
    requires |digits| > 0 && AllHex(digits)
    requires |rest| == 0 || !IsHexDigit(rest[0])
    ensures ParseIntHex("0x" + digits + rest) == Finite(HexValue(digits) as real)
  {
    assert "0x" + digits + rest == "0x" + (digits + rest);
    DigitsReadOfSpelling(digits, rest);
  }

  /** Round trip: parseInt reads back the number a "0x" spelling denotes,
      whatever non-digit text follows it. */
  lemma ParseIntHexRoundTrip(n: nat, rest: string)
    requires |rest| == 0 || !IsHexDigit(rest[0])
    ensures ParseIntHex("0x" + ToHex(n) + rest) == Finite(n as real)
  {
    ParseHexSpelling(ToHex(n), rest);
    HexValueOfToHex(n);
  }

  /** Leading white space never changes the result. */
  lemma {:induction false} LeadingWhiteSpaceIgnored(c: char, s: string)
    requires IsWhiteSpace(c)
    ensures ParseIntHex([c] + s) == ParseIntHex(s)
  {
    assert ([c] + s)[1..] == s;
  }

  /** "0x" followed by something other than a digit parses to NaN (never to 0). */
  lemma PrefixWithoutDigitsIsNaN(rest: string)
    requires |rest| == 0 || !IsHexDigit(rest[0])
    ensures ParseIntHex("0x" + rest) == NaN
  {
    var s := "0x" + rest;
    assert s[0] == '0' && s[1] == 'x' && s[2..] == rest;
    assert TrimStart(s) == s;
    assert AfterSign(s) == s;
    assert AfterPrefix(s) == rest;
  }

  lemma HexValueAppend(ds: string, c: char)
    requires AllHex(ds) && IsHexDigit(c)
    ensures AllHex(ds + [c]) && HexValue(ds + [c]) == HexValue(ds) * 16 + DigitValue(c)
  {
    assert (ds + [c])[..|ds|] == ds;
  }

  lemma HexValueOneEther()
    ensures HexValue("DE0B6B3A7640000") == 1000000000000000000
  {
    var s := ['D'];
    assert HexValue(s) == 13;
    HexValueAppend(s, 'E');
    s := s + ['E'];
    assert HexValue(s) == 222;
    HexValueAppend(s, '0');
    s := s + ['0'];
    assert HexValue(s) == 3552;
    HexValueAppend(s, 'B');
    s := s + ['B'];
    assert HexValue(s) == 56843;
    HexValueAppend(s, '6');
    s := s + ['6'];
    assert HexValue(s) == 909494;
    HexValueAppend(s, 'B');
    s := s + ['B'];
    assert HexValue(s) == 14551915;
    HexValueAppend(s, '3');
    s := s + ['3'];
    assert HexValue(s) == 232830643;
    HexValueAppend(s, 'A');
    s := s + ['A'];
    assert HexValue(s) == 3725290298;
    HexValueAppend(s, '7');
    s := s + ['7'];
    assert HexValue(s) == 59604644775;
    HexValueAppend(s, '6');
    s := s + ['6'];
    assert HexValue(s) == 953674316406;
    HexValueAppend(s, '4');
    s := s + ['4'];
    assert HexValue(s) == 15258789062500;
    HexValueAppend(s, '0');
    s := s + ['0'];
    assert HexValue(s) == 244140625000000;
    HexValueAppend(s, '0');
    s := s + ['0'];
    assert HexValue(s) == 3906250000000000;
    HexValueAppend(s, '0');
    s := s + ['0'];
    assert HexValue(s) == 62500000000000000;
    HexValueAppend(s, '0');
    s := s + ['0'];
    assert HexValue(s) == 1000000000000000000;
    assert s == "DE0B6B3A7640000";
  }

  /** The amount 10^18 spelled "0xDE0B6B3A7640000", as an upstream provider sends it. */
  lemma ParseOneEther(digits: string)
    requires digits == "DE0B6B3A7640000"
    ensures ParseIntHex("0x" + digits) == Finite(1000000000000000000.0)
  {
    assert "0x" + digits + "" == "0x" + digits;
    HexValueOneEther();
    ParseHexSpelling(digits, "");
    assert HexValue(digits) as real == 1000000000000000000.0;
  }
}

=== FILE: relay.dfy ===
/**
 One request through the relay: decode the body, extract the event, send the
 embed, fall back to plain text if the embed is refused, and answer.
 */
module Relay {
  import opened Json
  import opened Host
  import opened Extract
  import opened Format
  import opened Address

  /** How one outbound POST ended. */
  datatype SendResult =
    | Delivered    // a 2xx response: `resp.ok`
    | Refused      // any other response
    | Unreachable  // fetch() rejected: no response at all

  datatype Payload = EmbedMessage(embed: Embed) | TextMessage(content: string)

  datatype Reply = Reply(status: int, body: string)

  /** The answer to the inbound request and the POSTs made, in order. */
  datatype Trace = Trace(reply: Reply, sent: seq<Payload>)

  /** A decoded body: an empty body is a ping, anything else is a payload. */
  datatype Decoded = Ping | Data(value: JValue)

  const OkReply: Reply := Reply(200, "OK")
  const FailedReply: Reply := Reply(502, "Failed to send to Discord")

  function ErrorReply(env: Env, f: Fault): Reply {
    Reply(500, "Error: " + env.describe(f))
  }

  /** `{ rawBody: text }` */
  function RawBody(text: string): JValue {
    JObj(map["rawBody" := JStr(text)])
  }

  /** The text a request body reads as: a request without a body reads as "". */
  function BodyText(body: Option<string>): string {
    if body.Some? then body.value else ""
  }

  /** The decoder the handler evidently intends: read the body text once; an
      empty or missing body is a ping; JSON text is parsed; any other text is
      wrapped. */
  function Decode(env: Env, body: Option<string>): (d: Decoded)
    ensures d.Ping? <==> BodyText(body) == ""
    ensures var text := BodyText(body);
      text != "" && env.parse(text).Some? ==> d == Data(env.parse(text).value)
    ensures var text := BodyText(body);
      text != "" && env.parse(text).None? ==> d == Data(RawBody(text))
  {
    var text := BodyText(body);
    if text == "" then Ping
    else
      match ParseJson(env, text)
      case Some(v) => Data(v)
      case None => Data(RawBody(text))
  }

  /** A request body as the Fetch standard has it: none at all, or a stream
      that can be read once. */
  datatype Body = NoBody | Stream(text: string, used: bool)

  /** `request.json()`: reads a stream to the end, leaving it used, and parses
      what it read. A missing body reads as the empty text, which is not JSON,
      and stays usable. */
  function ReadJson(env: Env, b: Body): (res: (Result<JValue>, Body))
    ensures b.NoBody? ==> res == (Err(SyntaxError), NoBody)
    ensures b.Stream? ==> res.1 == Stream(b.text, true)
    ensures b.Stream? && b.used ==> res.0 == Err(BodyAlreadyUsed)
    ensures b.Stream? && !b.used && ParseJson(env, b.text).Some? ==> res.0 == Ok(ParseJson(env, b.text).value)
    ensures b.Stream? && !b.used && ParseJson(env, b.text).None? ==> res.0 == Err(SyntaxError)
  {
    match b
    case NoBody => (Err(SyntaxError), NoBody)
    case Stream(text, used) =>
      if used then (Err(BodyAlreadyUsed), b)
      else
        var parsed := match ParseJson(env, text) case Some(v) => Ok(v) case None => Err(SyntaxError);
        (parsed, Stream(text, true))
  }

  /** `request.text()`: reads a stream to the end, leaving it used; a used
      stream rejects. A missing body reads as "". */
  function ReadText(b: Body): (res: (Result<string>, Body))
    ensures b.NoBody? ==> res == (Ok(""), NoBody)
    ensures b.Stream? ==> res.1 == Stream(b.text, true)
    ensures b.Stream? ==> (res.0.Ok? <==> !b.used)
    ensures b.Stream? && !b.used ==> res.0 == Ok(b.text)
    ensures b.Stream? && b.used ==> res.0 == Err(BodyAlreadyUsed)
  {
    match b
    case NoBody => (Ok(""), NoBody)
    case Stream(text, used) =>
      if used then (Err(BodyAlreadyUsed), b) else (Ok(text), Stream(text, true))
  }

  /** After `json()` a stream cannot be read again by `text()`; a missing body can. */
  lemma BodyReadOnce(env: Env, text: string)
    ensures ReadText(ReadJson(env, Stream(text, false)).1).0 == Err(BodyAlreadyUsed)
    ensures ReadText(ReadJson(env, NoBody).1).0 == Ok("")
  {
  }

  /** The decoder as written: `request.json()`, and on failure `request.text()`
      on the same request. When there is a body, json() has already consumed
      it, text() rejects, and the rejection escapes to the outer `catch`. */
  function DecodeAsWritten(env: Env, body: Option<string>): (r: Result<Decoded>)
    ensures body.None? ==> r == Ok(Ping)
    ensures body.Some? && ParseJson(env, body.value).Some? ==> r == Ok(Data(ParseJson(env, body.value).value))
    ensures body.Some? && ParseJson(env, body.value).None? ==> r == Err(BodyAlreadyUsed)
  {
    var stream := if body.Some? then Stream(body.value, false) else NoBody;
    var (json, afterJson) := ReadJson(env, stream);
    if json.Ok? then Ok(Data(json.value))
    else
      var (text, _) := ReadText(afterJson);
      match text
      case Err(f) => Err(f)
      case Ok(t) =>
        if t == "" then Ok(Ping)
        else match ParseJson(env, t)
          case Some(v) => Ok(Data(v))
          case None => Ok(Data(RawBody(t)))
  }

  /** Send the embed; on refusal build the text fallback and send it; answer
      200 if either send got through, 502 if both were refused, and 500 if a
      send never reached the endpoint or the fallback text could not be built. */
  function Deliver(env: Env, embed: Embed, fallbackText: Result<string>, primary: SendResult, fallback: SendResult): (t: Trace)
    ensures 1 <= |t.sent| <= 2
    ensures t.sent[0] == EmbedMessage(embed)
    ensures |t.sent| == 2 <==> primary == Refused && fallbackText.Ok?
    ensures |t.sent| == 2 ==> t.sent[1] == TextMessage(fallbackText.value)
    ensures t.reply.status in {200, 500, 502}
    ensures t.reply.status == 200 <==>
      primary == Delivered || (primary == Refused && fallbackText.Ok? && fallback == Delivered)
    ensures t.reply.status == 502 <==> primary == Refused && fallbackText.Ok? && fallback == Refused
    ensures t.reply.status == 502 ==> t.reply == FailedReply
    ensures primary == Refused && fallbackText.Err? ==> t.reply == ErrorReply(env, fallbackText.fault)
  {
    var first := EmbedMessage(embed);
    match primary
    case Delivered => Trace(OkReply, [first])
    case Unreachable => Trace(ErrorReply(env, NetworkFailure), [first])
    case Refused =>
      match fallbackText
      case Err(f) => Trace(ErrorReply(env, f), [first])
      case Ok(text) =>
        var both := [first, TextMessage(text)];
        match fallback
        case Delivered => Trace(OkReply, both)
        case Refused => Trace(FailedReply, both)
        case Unreachable => Trace(ErrorReply(env, NetworkFailure), both)
  }

  /** With both endpoints answering (the boolean view of delivery): status
      200 iff one send succeeded, 502 iff both failed, and one send, or two
      when the first failed. */
  lemma DeliveryWithAnswers(env: Env, embed: Embed, text: string, primaryOk: bool, fallbackOk: bool)
    ensures var t := Deliver(env, embed, Ok(text),
        if primaryOk then Delivered else Refused, if fallbackOk then Delivered else Refused);
      && t.reply.status == (if primaryOk || fallbackOk then 200 else 502)
      && |t.sent| == (if primaryOk then 1 else 2)
  {
  }

  /** Everything after decoding: extraction, formatting and delivery. */
  function Respond(env: Env, decoded: Result<Decoded>, primary: SendResult, fallback: SendResult): (t: Trace)
    ensures |t.sent| <= 2
    ensures decoded.Err? ==> t == Trace(ErrorReply(env, decoded.fault), [])
    ensures decoded == Ok(Ping) ==> t == Trace(OkReply, [])
    ensures decoded == Ok(Data(JNull)) ==> t == Trace(ErrorReply(env, NullDereference), [])
    ensures decoded.Ok? && decoded.value.Data? && !decoded.value.value.JNull? ==>
      var data := decoded.value.value; var e := ExtractEvent(env, data).value;
      && (!Renderable(e) ==> t == Trace(ErrorReply(env, NotPrimitive), []))
      && (Renderable(e) ==>
            t == Deliver(env, BuildEmbed(env, e).value, FallbackText(env, e, data), primary, fallback))
  {
    match decoded
    case Err(f) => Trace(ErrorReply(env, f), [])
    case Ok(Ping) => Trace(OkReply, [])
    case Ok(Data(data)) =>
      match ExtractEvent(env, data)
      case Err(f) => Trace(ErrorReply(env, f), [])
      case Ok(e) =>
        match BuildEmbed(env, e)
        case Err(f) => Trace(ErrorReply(env, f), [])
        case Ok(embed) => Deliver(env, embed, FallbackText(env, e, data), primary, fallback)
  }

  /** The handler, with the corrected decoder. */
  function Handle(env: Env, body: Option<string>, primary: SendResult, fallback: SendResult): (t: Trace)
    ensures BodyText(body) == "" ==> t == Trace(OkReply, [])
    ensures |t.sent| <= 2
    ensures t.reply.status in {200, 500, 502}
    ensures |t.sent| > 0 ==> t.sent[0].EmbedMessage? && (|t.sent| == 2 ==> t.sent[1].TextMessage?)
    ensures |t.sent| == 2 ==> primary == Refused
    ensures t.reply.status == 200 && |t.sent| > 0 ==> primary == Delivered || fallback == Delivered
    ensures t.reply.status == 502 ==> |t.sent| == 2 && primary == Refused && fallback == Refused
  {
    Respond(env, Ok(Decode(env, body)), primary, fallback)
  }

  /** The handler exactly as written, with the decoder that reads the body twice. */
  function HandleAsWritten(env: Env, body: Option<string>, primary: SendResult, fallback: SendResult): (t: Trace)
    ensures body.None? ==> t == Trace(OkReply, [])
    ensures body.Some? && ParseJson(env, body.value).None? ==> t == Trace(ErrorReply(env, BodyAlreadyUsed), [])
  {
    Respond(env, DecodeAsWritten(env, body), primary, fallback)
  }

  /** The two handlers agree on a request without a body and on a JSON body. */
  lemma HandlersAgreeOnJson(env: Env, body: Option<string>, primary: SendResult, fallback: SendResult)
    requires body.None? || ParseJson(env, body.value).Some?
    ensures HandleAsWritten(env, body, primary, fallback) == Handle(env, body, primary, fallback)
  {
  }

  /** A request without a body is a ping, answered 200 with nothing sent, as
      written too: json() leaves a missing body usable and text() reads "". */
  lemma NoBodyIsPing(env: Env, primary: SendResult, fallback: SendResult)
    ensures HandleAsWritten(env, None, primary, fallback) == Trace(OkReply, [])
    ensures Handle(env, None, primary, fallback) == Trace(OkReply, [])
  {
  }

  /** The discrepancy: an empty body stream, meant as a ping answered 200
      with no send, is answered 500 as written (json() consumed it). */
  lemma EmptyBodyAsWrittenIs500(env: Env, primary: SendResult, fallback: SendResult)
    ensures HandleAsWritten(env, Some(""), primary, fallback) == Trace(ErrorReply(env, BodyAlreadyUsed), [])
    ensures Handle(env, Some(""), primary, fallback) == Trace(OkReply, [])
  {
  }

  /** Text that is not JSON is wrapped as `{ rawBody }` and relayed by the
      corrected handler; as written it is answered 500 without any send. */
  lemma PlainTextBody(env: Env, text: string, primary: SendResult, fallback: SendResult)
    requires text != "" && env.parse(text) == None
    ensures HandleAsWritten(env, Some(text), primary, fallback) == Trace(ErrorReply(env, BodyAlreadyUsed), [])
    ensures var t := Handle(env, Some(text), primary, fallback); var e := ExtractEvent(env, RawBody(text)).value;
      && Renderable(e)
      && |t.sent| >= 1 && t.sent[0] == EmbedMessage(BuildEmbed(env, e).value)
  {
    NoActivityGivesDefaults(env, RawBody(text));
  }

  /** A body of JSON `null` makes `data.event` throw: 500, nothing sent. */
  lemma NullPayloadIs500(env: Env, text: string, primary: SendResult, fallback: SendResult)
    requires text != "" && env.parse(text) == Some(JNull)
    ensures Handle(env, Some(text), primary, fallback) == Trace(ErrorReply(env, NullDereference), [])
  {
  }

  /** A JSON payload whose event the embed can print: the embed goes first;
      the text fallback follows exactly when the embed is refused and the
      summary can be printed; 200 exactly when a send got through, 502
      exactly when both were refused. */
  lemma HandleDelivers(env: Env, text: string, primary: SendResult, fallback: SendResult)
    requires text != "" && env.parse(text).Some? && !env.parse(text).value.JNull?
    requires Renderable(ExtractEvent(env, env.parse(text).value).value)
    ensures var t := Handle(env, Some(text), primary, fallback);
      var e := ExtractEvent(env, env.parse(text).value).value;
      && |t.sent| >= 1 && t.sent[0] == EmbedMessage(BuildEmbed(env, e).value)
      && (|t.sent| == 2 <==> primary == Refused && Summarisable(e))
      && (t.reply.status == 200 <==>
            primary == Delivered || (primary == Refused && Summarisable(e) && fallback == Delivered))
      && (t.reply.status == 502 <==> primary == Refused && Summarisable(e) && fallback == Refused)
  {
  }

  /** A payload whose Hash, Value, Asset, Category or Block cannot be
      converted to a string makes building the embed throw: 500, nothing sent. */
  lemma UnprintableFieldIs500(env: Env, text: string, primary: SendResult, fallback: SendResult)
    requires text != "" && env.parse(text).Some? && !env.parse(text).value.JNull?
    requires !Renderable(ExtractEvent(env, env.parse(text).value).value)
    ensures Handle(env, Some(text), primary, fallback) == Trace(ErrorReply(env, NotPrimitive), [])
  {
  }

  /** An address that cannot be converted to a string goes unnoticed by the
      embed (shortAddr renders it "-"), but when the embed is refused the
      fallback text throws: 500 after the one send. */
  lemma UnprintableAddressAfterRefusal(env: Env, text: string, fallback: SendResult)
    requires text != "" && env.parse(text).Some? && !env.parse(text).value.JNull?
    requires var e := ExtractEvent(env, env.parse(text).value).value;
      Renderable(e) && !Summarisable(e)
    ensures var e := ExtractEvent(env, env.parse(text).value).value;
      Handle(env, Some(text), Refused, fallback)
        == Trace(ErrorReply(env, NotPrimitive), [EmbedMessage(BuildEmbed(env, e).value)])
  {
  }

  /** When the embed is refused, the second and last POST is the text
      fallback: it starts "New TX Event:" and ends with the first at most
      1900 characters of the serialised payload. */
  lemma FallbackCarriesRawDump(env: Env, text: string, fallback: SendResult)
    requires text != "" && env.parse(text).Some? && env.parse(text).value != JNull
    requires var e := ExtractEvent(env, env.parse(text).value).value;
      Renderable(e) && Summarisable(e)
    ensures var t := Handle(env, Some(text), Refused, fallback);
      && |t.sent| == 2
      && t.sent[1].TextMessage?
      && "New TX Event:" <= t.sent[1].content
      && var raw := env.stringify(env.parse(text).value);
         var n := if |raw| <= RawLimit then |raw| else RawLimit;
         n <= |t.sent[1].content| && t.sent[1].content[|t.sent[1].content| - n..] == raw[..n]
  {
    var data := env.parse(text).value;
    var e := ExtractEvent(env, data).value;
    var fallbackText := FallbackText(env, e, data).value;
    var t := Handle(env, Some(text), Refused, fallback);
    assert t.sent[1] == TextMessage(fallbackText);
    var d := RawDump(env, data);
    assert d == env.stringify(data)[..|d|];
    assert fallbackText[|fallbackText| - |d|..] == env.stringify(data)[..|d|];
  }

  /** The activity of the example transfer. */
  function ExampleActivity(from: string, to: string): JValue {
    JObj(map[
      "fromAddress" := JStr(from), "toAddress" := JStr(to), "hash" := JStr("0xHASH"),
      "value" := JNum(Finite(2.5)), "asset" := JStr("USDC"), "category" := JStr("token"),
      "blockNum" := JNum(Finite(123.0))])
  }

  /** The example activity's labels are read from their first keys. */
  lemma ExampleFields(from: string, to: string)
    requires Truthy(Str(from)) && Truthy(Str(to))
    ensures var evt := ExampleActivity(from, to);
      && Pick(FromCandidates(evt)) == JStr(from) && Pick(ToCandidates(evt)) == JStr(to)
      && Pick(HashCandidates(evt)) == JStr("0xHASH")
      && Pick(AssetCandidates(evt)) == JStr("USDC") && Pick(CategoryCandidates(evt)) == JStr("token")
      && Pick(BlockCandidates(evt)) == JNum(Finite(123.0))
  {
    var evt := ExampleActivity(from, to);
    FirstAlternativeTruthy(FromCandidates(evt));
    FirstAlternativeTruthy(ToCandidates(evt));
    FirstAlternativeTruthy(HashCandidates(evt));
    FirstAlternativeTruthy(AssetCandidates(evt));
    FirstAlternativeTruthy(CategoryCandidates(evt));
    FirstAlternativeTruthy(BlockCandidates(evt));
  }

  /** The example activity's numeric `value` is used as it is. */
  lemma ExampleValue(env: Env, from: string, to: string)
    ensures ValueOf(env, ExampleActivity(from, to)) == JNum(Finite(2.5))
  {
    var evt := ExampleActivity(from, to);
    assert evt.members["value"] == JNum(Finite(2.5));
    NumericValueWins(env, evt, Finite(2.5));
  }

  function ExamplePayload(from: string, to: string): JValue {
    JObj(map["event" := JObj(map["activity" := JArr([ExampleActivity(from, to)])])])
  }

  lemma ExampleEvent(env: Env, from: string, to: string)
    requires Truthy(Str(from)) && Truthy(Str(to))
    ensures ExtractEvent(env, ExamplePayload(from, to)).Ok?
    ensures var e := ExtractEvent(env, ExamplePayload(from, to)).value;
      e == Event(JStr(from), JStr(to), JStr("0xHASH"), JNum(Finite(2.5)), JStr("USDC"),
        JStr("token"), JNum(Finite(123.0)), e.timestamp)
  {
    var data := ExamplePayload(from, to);
    var evt := ExampleActivity(from, to);
    assert EventRoot(data) == JObj(map["activity" := JArr([evt])]);
    assert FirstActivity(EventRoot(data)) == evt;
    ExampleFields(from, to);
    ExampleValue(env, from, to);
  }

  /** The embed of the example transfer: both addresses shortened, the hash
      as code, the amount with its asset, the category and the block number. */
  lemma ExampleEmbed(env: Env, e: Event, from: string, to: string)
    requires from == "0xAAAA" + "11112222333344445555666677778888" + "9999"
    requires to == "0xBBBB" + "11112222333344445555666677778888" + "9999"
    requires e == Event(JStr(from), JStr(to), JStr("0xHASH"), JNum(Finite(2.5)), JStr("USDC"),
      JStr("token"), JNum(Finite(123.0)), e.timestamp)
    ensures BuildEmbed(env, e).Ok? && BuildEmbed(env, e).value.fields == [
      Field("From", Code("0xAAAA" + [Ellipsis] + "9999"), true),
      Field("To", Code("0xBBBB" + [Ellipsis] + "9999"), true),
      Field("Hash", Code("0xHASH"), false),
      Field("Value", env.numberText(2.5) + " " + "USDC", true),
      Field("Category", "token", true),
      Field("Block", env.numberText(123.0), true)]
  {
    ShortenKeepsEnds("0xAAAA", "11112222333344445555666677778888", "9999");
    ShortenKeepsEnds("0xBBBB", "11112222333344445555666677778888", "9999");
    assert HashText(env, e.hash) == Code("0xHASH");
  }

  /** A token transfer with every field present, delivered on the first try:
      one send, the embed, answered 200. */
  lemma ExampleTransfer(env: Env, body: string, from: string, to: string)
    requires from == "0xAAAA" + "11112222333344445555666677778888" + "9999"
    requires to == "0xBBBB" + "11112222333344445555666677778888" + "9999"
    requires body != "" && env.parse(body) == Some(ExamplePayload(from, to))
    ensures var t := Handle(env, Some(body), Delivered, Refused);
      && t.reply == OkReply && |t.sent| == 1 && t.sent[0].EmbedMessage?
      && t.sent[0].embed.fields == [
           Field("From", Code("0xAAAA" + [Ellipsis] + "9999"), true),
           Field("To", Code("0xBBBB" + [Ellipsis] + "9999"), true),
           Field("Hash", Code("0xHASH"), false),
           Field("Value", env.numberText(2.5) + " " + "USDC", true),
           Field("Category", "token", true),
           Field("Block", env.numberText(123.0), true)]
  {
    assert Truthy(Str(from)) && Truthy(Str(to));
    ExampleEvent(env, from, to);
    var e := ExtractEvent(env, ExamplePayload(from, to)).value;
    ExampleEmbed(env, e, from, to);
    assert Decode(env, Some(body)) == Data(ExamplePayload(from, to));
    assert Handle(env, Some(body), Delivered, Refused) == Trace(OkReply, [EmbedMessage(BuildEmbed(env, e).value)]);
  }
}

=== FILE: timestamp.dfy ===
/**
 `parseTimestamp`: a loosely typed block timestamp (hex string, decimal
 seconds or milliseconds, or nothing) becomes an ISO-8601 string, falling back
 to the current time whenever the input is missing or unusable.
 */
module Timestamp {
  import opened Json
  import opened Host
  import opened ParseInt

  /** Values below this are taken to be seconds, the rest milliseconds. */
  const SecondsThreshold: real := 1000000000000.0

  /** A Date holds at most this many milliseconds either side of the epoch. */
  const MaxTimeValue: int := 8640000000000000

  predicate ValidTime(t: int) {
    -MaxTimeValue <= t <= MaxTimeValue
  }

  /** JavaScript's `n < bound`; a comparison with NaN is false. */
  predicate Below(n: Num, bound: real) {
    match n
    case NaN => false
    case Infinity(negative) => negative
    case Finite(r) => r < bound
  }

  function Times1000(n: Num): Num {
    match n
    case Finite(r) => Finite(r * 1000.0)
    case _ => n
  }

  /** `n < 1e12 ? n * 1000 : n`. Only a finite number below the threshold
      changes: -Infinity is below it but stays -Infinity. */
  function ToMillis(n: Num): (ms: Num)
    ensures n.Finite? && n.r < SecondsThreshold ==> ms == Finite(n.r * 1000.0)
    ensures !(n.Finite? && n.r < SecondsThreshold) ==> ms == n
  {
    if Below(n, SecondsThreshold) then Times1000(n) else n
  }

  /** ToIntegerOrInfinity on a finite number. */
  function TruncateTowardZero(r: real): (t: int)
    ensures r >= 0.0 ==> 0 <= t && t as real <= r < t as real + 1.0
    ensures r < 0.0 ==> t <= 0 && t as real - 1.0 < r <= t as real
  {
    if r >= 0.0 then r.Floor else -((-r).Floor)
  }

  /** `new Date(ms).toISOString()`, None where it throws a RangeError
      (TimeClip gives NaN for a non-finite value or one beyond the range). */
  function IsoString(env: Env, ms: Num): (r: Option<string>)
    ensures r.Some? <==> ms.Finite? && -MaxTimeValue as real <= ms.r <= MaxTimeValue as real
    ensures r.Some? ==> ValidTime(TruncateTowardZero(ms.r)) && r.value == env.isoText(TruncateTowardZero(ms.r))
  {
    if ms.Finite? && -MaxTimeValue as real <= ms.r <= MaxTimeValue as real then
      var t := TruncateTowardZero(ms.r);
      assert ValidTime(t);
      Some(env.isoText(t))
    else None
  }

  function OrNow(env: Env, iso: Option<string>): string {
    if iso.Some? then iso.value else env.now
  }

  predicate IsHexString(v: JValue) {
    v.JStr? && |v.s| >= 2 && v.s[..2] == "0x"
  }

  function ParseTimestamp(env: Env, ts: JsValue): (r: string)
    ensures !Truthy(ts) ==> r == env.now
    ensures r == env.now || exists t :: ValidTime(t) && r == env.isoText(t)
  {
    if !Truthy(ts) then env.now
    else if IsHexString(ts.json) then
      OrNow(env, IsoString(env, ToMillis(ParseIntHex(ts.json.s))))
    else
      match ToNumber(env, ts)
      case None => env.now
      case Some(n) => if n.NaN? then env.now else OrNow(env, IsoString(env, ToMillis(n)))
  }

  /** A hex string timestamp goes through parseInt and the unit heuristic. */
  lemma HexTimestamp(env: Env, s: string)
    requires IsHexString(JStr(s))
    ensures ParseTimestamp(env, Str(s)) == OrNow(env, IsoString(env, ToMillis(ParseIntHex(s))))
  {
  }

  /** A whole number of milliseconds inside the Date range formats as itself. */
  lemma WholeMillis(env: Env, t: int)
    requires ValidTime(t)
    ensures IsoString(env, Finite(t as real)) == Some(env.isoText(t))
  {
    assert TruncateTowardZero(t as real) == t;
  }

  /** A hex timestamp below 10^12 is read as seconds. */
  lemma HexSecondsAreScaled(env: Env, k: nat)
    requires (k as real) < SecondsThreshold
    ensures ParseTimestamp(env, Str("0x" + ToHex(k))) == env.isoText(k * 1000)
  {
    var s := "0x" + ToHex(k);
    assert s == "0x" + ToHex(k) + "";
    ParseIntHexRoundTrip(k, "");
    assert s[..2] == "0x";
    HexTimestamp(env, s);
    SecondsInRange(env, k);
  }

  lemma SecondsInRange(env: Env, k: nat)
    requires (k as real) < SecondsThreshold
    ensures IsoString(env, ToMillis(Finite(k as real))) == Some(env.isoText(k * 1000))
  {
    var ms := k * 1000;
    assert ms as real == k as real * 1000.0;
    assert k < 1000000000000;
    assert ms < 1000000000000 * 1000;
    WholeMillis(env, ms);
  }

  /** A hex timestamp from 10^12 up to the end of the Date range is read as milliseconds. */
  lemma HexMillisAreKept(env: Env, k: nat)
    requires SecondsThreshold <= k as real && k <= MaxTimeValue
    ensures ParseTimestamp(env, Str("0x" + ToHex(k))) == env.isoText(k)
  {
    var s := "0x" + ToHex(k);
    assert s == "0x" + ToHex(k) + "";
    ParseIntHexRoundTrip(k, "");
    assert s[..2] == "0x";
    HexTimestamp(env, s);
    WholeMillis(env, k);
  }

  /** A hex timestamp beyond the Date range makes toISOString throw; the current time is used. */
  lemma HexBeyondRangeIsNow(env: Env, k: nat)
    requires k > MaxTimeValue
    ensures ParseTimestamp(env, Str("0x" + ToHex(k))) == env.now
  {
    var s := "0x" + ToHex(k);
    assert s == "0x" + ToHex(k) + "";
    ParseIntHexRoundTrip(k, "");
    assert IsHexString(JStr(s));
  }

  /** A "0x" string without digits parses to NaN, which Date rejects: the current time is used. */
  lemma HexWithoutDigitsIsNow(env: Env, rest: string)
    requires |rest| == 0 || !IsHexDigit(rest[0])
    ensures ParseTimestamp(env, Str("0x" + rest)) == env.now
  {
    var s := "0x" + rest;
    assert s[..2] == "0x";
    PrefixWithoutDigitsIsNaN(rest);
    HexTimestamp(env, s);
  }

  /** A JSON number timestamp: seconds below 10^12, milliseconds otherwise. */
  lemma NumericTimestamp(env: Env, r: real)
    requires r != 0.0
    ensures r < SecondsThreshold && -MaxTimeValue as real <= r * 1000.0 ==>
      ParseTimestamp(env, Defined(JNum(Finite(r)))) == env.isoText(TruncateTowardZero(r * 1000.0))
    ensures SecondsThreshold <= r <= MaxTimeValue as real ==>
      ParseTimestamp(env, Defined(JNum(Finite(r)))) == env.isoText(TruncateTowardZero(r))
  {
  }

  /** Seconds so far in the past that the scaled time value leaves the Date
      range make toISOString throw, and the current time is used instead. */
  lemma FarPastSecondsIsNow(env: Env, r: real)
    requires r * 1000.0 < -MaxTimeValue as real
    ensures ParseTimestamp(env, Defined(JNum(Finite(r)))) == env.now
  {
  }

  /** A timestamp whose conversion to a number throws (an object with a
      "toString" member) is caught, and the current time is used. */
  lemma UnconvertibleTimestampIsNow(env: Env, m: map<string, JValue>)
    requires "toString" in m
    ensures ParseTimestamp(env, Defined(JObj(m))) == env.now
  {
  }

  /** The digits of the example hex timestamp spell 100000000. */
  lemma HexValueOfExample(digits: string)
    requires digits == "5F5E100"
    ensures AllHex(digits) && HexValue(digits) == 100000000
  {
    var d := ['5'];
    assert HexValue(d) == 5;
    HexValueAppend(d, 'F');
    d := d + ['F'];
    assert HexValue(d) == 95;
    HexValueAppend(d, '5');
    d := d + ['5'];
    assert HexValue(d) == 1525;
    HexValueAppend(d, 'E');
    d := d + ['E'];
    assert HexValue(d) == 24414;
    HexValueAppend(d, '1');
    d := d + ['1'];
    assert HexValue(d) == 390625;
    HexValueAppend(d, '0');
    d := d + ['0'];
    assert HexValue(d) == 6250000;
    HexValueAppend(d, '0');
    d := d + ['0'];
    assert HexValue(d) == 100000000;
    assert d == digits;
  }

  /** "0x5F5E100" is 100000000 seconds after the epoch. */
  lemma HexExampleIsSeconds(env: Env, digits: string)
    requires digits == "5F5E100"
    ensures ParseTimestamp(env, Str("0x" + digits)) == env.isoText(100000000000)
  {
    var s := "0x" + digits;
    assert s == "0x" + digits + "";
    HexValueOfExample(digits);
    ParseHexSpelling(digits, "");
    assert ParseIntHex(s) == Finite(100000000.0);
    assert s[..2] == "0x";
    HexTimestamp(env, s);
    assert ToMillis(Finite(100000000.0)) == Finite(100000000000 as real);
    WholeMillis(env, 100000000000);
  }

  /** 1700000000000 is already in milliseconds. */
  lemma MillisExampleKept(env: Env)
    ensures ParseTimestamp(env, Defined(JNum(Finite(1700000000000.0)))) == env.isoText(1700000000000)
  {
    assert TruncateTowardZero(1700000000000.0) == 1700000000000;
  }
}
